=== FILE: README.md ===
# Recette: a verified model of the recipe app's logic

Recette is an iOS recipe-sharing app written in SwiftUI on top of Firebase.
Its users post recipes, browse them by keyword and tag, like and delete
them, and pick recipes to build a shopping list with budget and calorie
totals. This project models in Dafny the parts of the app that are logic
rather than layout:

- **Shopping list** (`shopping_list.dfy`, module `ShoppingList`):
  - selecting and deselecting recipes;
  - merging the selected recipes' ingredients by name, with amounts joined as text by `" + "`;
  - the ascending list of shopping items;
  - ticking items off, and the list of items still to buy;
  - the budget and calorie totals. Each strips fixed decorations, reads the rest as an integer (0 when that fails) and adds the results up.
- **Browsing** (`recipe_browse.dfy`, module `RecipeBrowse`): the keyword and tag filters, the sorted list of every tag, and tag-chip toggling.
- **Posting** (`recipe_post.dfy`, module `RecipePost`):
  - the form's state, and its row and tag edits;
  - the three guards `postRecipe` checks, in order;
  - the recipe written to the store, and the completion alert.
- **Records** (`models.dfy`, module `Models`): recipes, ingredients and shopping items, plus the dictionary form a recipe is stored in and read back from.
- **Sign-in** (`auth.dfy`, module `Auth`): the email sign-up, sign-in and sign-out transitions over the four published fields of the authentication view model.
- **Recipe view model** (`recipe_store.dfy`, module `RecipeStore`):
  - the in-memory like, and the like transaction's rule;
  - deletion by id;
  - the all-recipes query (newest first) and the liked-recipes query (more than four likes, most liked first, at most ten), each as a function of the documents in the store.

Supporting modules:

- `Wrappers`: `Option`.
- `Seqs`: filtering, `compactMap`, subsequences, sums and a stable descending sort.
- `StringOrder`: Swift's `String` `<` as code-point lexicographic order.
- `Text`: substring search, `replacingOccurrences(of:with: "")` and the `" + "` join.
- `IntText`: `Int(String)` and `"\(n)"`.

Most asynchronous steps are split into two parts:

- a function for what the call does right away;
- a function for what its completion does with the answer.

The answer is a parameter: a store error, a document set, or the signed-in email. The one exception is `postRecipe` with no store configured: its main-queue completion needs no answer, so `RecipePost.PostRecipe` returns the state after it has run.

Amounts of the same ingredient are concatenated as text, never added, and
each total is a plain sum of one number per selected recipe.

## Model

| member | source | states |
|---|---|---|
| Models.RecipeToDictionary | Recette/RecipePostView.swift:393-411 | a stored recipe has exactly the sixteen field keys, `likes` and `isPublic` as stored values, and one `{name, amount}` map per ingredient |
| Models.IngredientToDictionary | Recette/RecipePostView.swift:366-371 | an ingredient is stored as a map with exactly the keys `name` and `amount` |
| Models.RecipeFromDictionary | Recette/Models.swift:11-28 | a document decodes only when all sixteen keys are present, and the decoded likes and creation time are the document's own fields |
| Models.DecodeIngredientsRoundTrip | Recette/Models.swift:30-39 | stored ingredients decode back to the same names and amounts, in order |
| Models.RecipeRoundTrip | Recette/Models.swift:11-28 | writing a recipe and decoding the document gives back the same recipe |
| Models.DecodeReadsRecipeKeys | Recette/Models.swift:11-28 | decoding looks only at the sixteen recipe keys: documents that agree on them decode alike |
| Models.ExtraKeysIgnored | Recette/Models.swift:11-28 | a stored recipe's document with any other fields added still decodes to the same recipe |
| Models.RemoveById | Recette/RecipeViewModel.swift:189 | `removeAll { $0.id == id }` keeps exactly the recipes with another id, each as often as before and in their original order |
| ShoppingList.ToggleSelection | Recette/ContentView.swift:661-666 | a selected id is removed everywhere and all other entries stay, each as often as before and in order; an unselected recipe is appended at the end |
| ShoppingList.SelectThenDeselect | Recette/ContentView.swift:661-666 | pressing the select button twice restores the previous selection |
| ShoppingList.SelectedIngredients | Recette/ContentView.swift:706-707 | the ingredients folded are exactly those of the selected recipes |
| ShoppingList.SelectedIngredientsSingle | Recette/ContentView.swift:706-707 | one selected recipe contributes its ingredient list in its own order |
| ShoppingList.SelectedIngredientsAppend | Recette/ContentView.swift:706-707 | the ingredients are folded recipe by recipe in selection order: a longer selection appends the new recipes' ingredients after the others |
| ShoppingList.Merge | Recette/ContentView.swift:709-714 | one ingredient adds its name as a key: a new name holds its amount, a known name gains `" + "` and the amount, every other entry is unchanged |
| ShoppingList.Accumulate | Recette/ContentView.swift:706-716 | the dictionary's keys are exactly the ingredient names that occur |
| ShoppingList.AccumulateJoinsAmounts | Recette/ContentView.swift:708-714 | under each name the dictionary holds every amount of that name, in selection and list order, joined by `" + "` |
| ShoppingList.SortedKeysMakeShoppingList | Recette/ContentView.swift:718-720 | the dictionary's keys in ascending order, each with its entry, form the shopping list of the selection |
| ShoppingList.UpdateShoppingItems | Recette/ContentView.swift:703-721 | one item per distinct ingredient name, strictly ascending by name, with id equal to name and the joined amounts as quantity; an empty selection gives an empty list |
| ShoppingList.ShoppingListUnique | Recette/ContentView.swift:718-720 | the shopping list is determined by the selection, whatever order the dictionary yields its entries in |
| ShoppingList.ToggleChecked | Recette/ContentView.swift:520-524 | tapping an item flips whether its id is checked and no other id |
| ShoppingList.UncheckedItems | Recette/ContentView.swift:560 | the still-to-buy list holds exactly the unchecked items, each as often as in the list and in list order |
| ShoppingList.UncheckedStaysSorted | Recette/ContentView.swift:560 | the still-to-buy list keeps the shopping list's ascending name order |
| ShoppingList.CalculateTotal | Recette/ContentView.swift:724-730 | the accumulating loop yields the decimal text of the sum over the selection |
| ShoppingList.CalculateTotalBudget | Recette/ContentView.swift:724-730 | the budget text reads back as the sum of the per-recipe budgets |
| ShoppingList.CalculateTotalCalories | Recette/ContentView.swift:733-739 | the calorie text reads back as the plain sum of the per-recipe calories, not a per-serving figure |
| Seqs.SumOfAppend | Recette/ContentView.swift:725-728 | selecting more recipes adds exactly their contributions to a total |
| Seqs.SumOfPermutation | Recette/ContentView.swift:725-728 | a total does not depend on the order in which recipes were selected |
| ShoppingList.BudgetOf | Recette/ContentView.swift:726 | a budget with neither `円` nor `¥` in it is read as written, 0 when it is not an integer |
| ShoppingList.CaloriesOf | Recette/ContentView.swift:735 | calories with neither `kcal` nor `,` in them are read as written, 0 when not an integer |
| ShoppingList.BudgetOfDecorated | Recette/ContentView.swift:726 | a budget written as `n円` or `¥n` counts as n |
| ShoppingList.CaloriesOfDecorated | Recette/ContentView.swift:735 | calories written as `nkcal` count as n |
| ShoppingList.CaloriesOfThousandsComma | Recette/ContentView.swift:735 | calories have their commas removed as well as `kcal`, so `1,200kcal` counts as 1200 |
| ShoppingList.BudgetOfTrailingDash | Recette/ContentView.swift:726 | a budget with a trailing `-` fails to parse and counts 0 |
| ShoppingList.BudgetOfThousandsComma | Recette/ContentView.swift:726 | a budget with a thousands comma fails to parse and counts 0, since only calories have commas removed |
| RecipeBrowse.FilteredRecipes | Recette/ContentView.swift:73-93 | the result keeps, in order and as often as listed, exactly the recipes matching the keyword (if any) and sharing a selected tag (if any); with neither it is the whole list |
| RecipeBrowse.FilteredRecipesIdempotent | Recette/ContentView.swift:73-93 | filtering the filtered list again changes nothing |
| RecipeBrowse.AllTags | Recette/ContentView.swift:231-234 | the tag list is strictly ascending and holds exactly the tags of the loaded recipes |
| RecipeBrowse.ToggleTag | Recette/ContentView.swift:155-159 | tapping a chip flips that tag's selection and no other |
| RecipeBrowse.ToggleTagTwice | Recette/ContentView.swift:155-159 | tapping a chip twice restores the selection |
| RecipePost.NewForm | Recette/RecipePostView.swift:16-29 | the form opens well formed, not posting, with no alert, and would be refused for its missing title |
| RecipePost.Apply | Recette/RecipePostView.swift:43-222 | one edit keeps the form well formed and changes each field only through its own edits: a text field by typing, the tag input and tags through the tag field and its buttons, each row list through its add, delete and row edits; the posting state and the alert never change |
| RecipePost.AddTag | Recette/RecipePostView.swift:205-208 | a non-empty new tag is appended and the input cleared; an empty or listed tag changes nothing; the tag list stays duplicate-free |
| RecipePost.RemoveTag | Recette/RecipePostView.swift:222 | every occurrence of the tag goes, all other tags stay in order, nothing else on the form changes |
| RecipePost.AddThenRemoveTag | Recette/RecipePostView.swift:205-222 | removing a tag just added restores the previous tags |
| RecipePost.DeleteIngredientRow | Recette/RecipePostView.swift:81-84 | a row is removed only while there is more than one, so the list never becomes empty |
| RecipePost.DeleteInstructionRow | Recette/RecipePostView.swift:116-119 | a step is removed only while there is more than one, so the list never becomes empty |
| RecipePost.EditsKeepWellFormed | Recette/RecipePostView.swift:43-222 | no sequence of edits leaves the form without an ingredient row or a step, with a tag listed twice, or with a difficulty outside the picker's three segments |
| RecipePost.Rejection | Recette/RecipePostView.swift:281-298 | the guards apply in the order title, ingredients, instructions, each with its message, and all pass exactly when the form is postable |
| RecipePost.NewRecipe | Recette/RecipePostView.swift:324-341 | the recipe carries the form's content as typed, the given id and time, the current user as author, no likes and public, and reads back unchanged from its stored form |
| RecipePost.PostRecipe | Recette/RecipePostView.swift:281-341 | a failing guard only raises its alert; with every guard passed and no store configured only the posting flag and the configuration alert change; with a store only the posting flag is set, and the recipe written is the form's content by the current user, public, with no likes |
| RecipePost.PostCompleted | Recette/RecipePostView.swift:345-356 | the store's answer ends posting and shows the success message or the failure prefix with the error |
| RecipePost.SuccessCloses | Recette/RecipePostView.swift:270-275 | after a successful post the alert's OK button closes the form |
| RecipePost.PostedRecipeRoundTrip | Recette/RecipePostView.swift:324-345 | a posted form is stored with all sixteen keys and reads back as the form's content, by the current user, public and unliked |
| Auth.Init | Recette/AuthViewModel.swift:35-38 | the view model starts signed out, with no user, idle and with no error |
| Auth.SignUpWithEmail | Recette/AuthViewModel.swift:42-65 | an empty field, then a password under six characters, each stop loading with their message; otherwise loading continues and the sign-in is scheduled; sign-in status and user are untouched until then |
| Auth.SignInWithEmail | Recette/AuthViewModel.swift:68-85 | only the emptiness check applies; otherwise loading continues and the sign-in is scheduled |
| Auth.CompleteEmailAuth | Recette/AuthViewModel.swift:60-64 | the scheduled completion ends loading and signs in the email, leaving the error message as the call set it |
| Auth.SignOut | Recette/AuthViewModel.swift:182-187 | signed out, no user and no error, with loading untouched |
| Auth.SignUpOutcome | Recette/AuthViewModel.swift:42-65 | once settled a sign-up is signed in as that email exactly when both fields pass; otherwise the previous sign-in remains and an error is shown |
| Auth.SignInHasNoLengthRule | Recette/AuthViewModel.swift:68-85 | a short password that sign-up refuses still signs in |
| Auth.SignInThenOut | Recette/AuthViewModel.swift:182-187 | signing in on a fresh view model and signing out returns it to its initial state |
| RecipeStore.Unconfigured | Recette/RecipeViewModel.swift:38-41 | without a configured store the view model starts empty with the restart message |
| RecipeStore.FirstIndexOf | Recette/RecipeViewModel.swift:146 | the index found is the first recipe with the id, and none is found exactly when no recipe has it |
| RecipeStore.LikeLocally | Recette/RecipeViewModel.swift:146-148 | only the first recipe with the id changes, and only its likes, by exactly one; an absent id changes nothing |
| RecipeStore.LikeAddsOne | Recette/RecipeViewModel.swift:146-148 | the total of the likes shown rises by one exactly when the recipe is in the list |
| RecipeStore.LikeTransaction | Recette/RecipeViewModel.swift:156-173 | an integer `likes` field is written back plus one; a missing document or another type aborts with the invalid-likes message; a failed read aborts with its error |
| RecipeStore.LikeCompleted | Recette/RecipeViewModel.swift:174-182 | a failed like shows the like-failure prefix with the error; a successful one leaves the state alone |
| RecipeStore.StoredLikeRoundTrip | Recette/RecipeViewModel.swift:166-172 | liking a stored recipe writes one more like, and the updated document reads back as the in-memory like would leave the recipe |
| RecipeStore.DeleteCompleted | Recette/RecipeViewModel.swift:195-204 | on success no recipe with the id remains and all others stay, each as often as before and in order; on failure only the error message changes |
| RecipeStore.DeleteIdempotent | Recette/RecipeViewModel.swift:200 | deleting the same recipe twice is the same as deleting it once |
| RecipeStore.LikeAfterDelete | Recette/RecipeViewModel.swift:189 | liking a deleted recipe changes nothing |
| RecipeStore.DecodeAll | Recette/RecipeViewModel.swift:74-76 | `compactMap` keeps exactly the documents that decode |
| RecipeStore.DecodeAllSingle | Recette/RecipeViewModel.swift:74-76 | one document yields its recipe when it decodes and nothing otherwise |
| RecipeStore.DecodeAllAppend | Recette/RecipeViewModel.swift:74-76 | decoding goes document by document: a concatenation decodes to the concatenation of the parts' recipes, in order |
| RecipeStore.DecodeAllPermutation | Recette/RecipeViewModel.swift:74-76 | reordering the documents only reorders the decoded recipes |
| RecipeStore.UndatedNeverDecodes | Recette/Models.swift:11-28 | a document without a `createdAt` timestamp never decodes |
| RecipeStore.DecodeAllSkipsUndated | Recette/RecipeViewModel.swift:65-76 | documents without a `createdAt` timestamp, which the ordered query leaves out, never decode anyway |
| RecipeStore.OrderedDecodeCounts | Recette/RecipeViewModel.swift:65-76 | ordering the dated documents newest first loses and duplicates no decodable recipe |
| RecipeStore.DecodeStored | Recette/RecipeViewModel.swift:74-76 | documents written by the app all decode, in order |
| RecipeStore.DecodeAllDescending | Recette/RecipeViewModel.swift:65-76 | decoding drops documents but never reorders them |
| RecipeStore.RecipesQuery | Recette/RecipeViewModel.swift:65-76 | the loaded recipes are newest first and are the decodable documents' recipes, each as often as stored |
| RecipeStore.LikedDocuments | Recette/RecipeViewModel.swift:96-99 | the liked query returns at most ten documents with an integer like count above four, most liked first |
| RecipeStore.LikedDocumentsAreTop | Recette/RecipeViewModel.swift:96-99 | no qualifying document left out has more likes than one returned, and none is left out when fewer than ten are returned |
| RecipeStore.LikedRecipesAreTop | Recette/RecipeViewModel.swift:96-110 | a decodable qualifying document whose recipe is missing from the liked list was crowded out by ten documents with at least as many likes |
| RecipeStore.LikedQuery | Recette/RecipeViewModel.swift:96-110 | the liked recipes each have more than four likes, are most liked first, number at most ten and come from the store |
| RecipeStore.LoadRecipes | Recette/RecipeViewModel.swift:44-63 | with no store the error is shown and loading stops; otherwise loading starts with the error cleared |
| RecipeStore.RecipesLoaded | Recette/RecipeViewModel.swift:65-78 | the listener stops loading, and either shows the load error with the list kept or installs the query's answer |
| RecipeStore.LikedLoaded | Recette/RecipeViewModel.swift:100-111 | a listener error leaves the state as it was; otherwise the liked list becomes the query's answer |
| RecipeStore.LoadShowsStored | Recette/RecipeViewModel.swift:65-78 | loading a store written by the app shows every stored recipe as often as stored, newest first |
| IntText.ParseShowInt | Recette/ContentView.swift:729 | the total's decimal text reads back as the total |
| Seqs.FilterCounts | Recette/RecipeViewModel.swift:189 | filtering keeps every kept element as often as it occurs and drops every other one |
| Seqs.FilterMapMembers | Recette/RecipeViewModel.swift:74-76 | `compactMap` keeps a value exactly when some element maps to it |
| Seqs.FilterMapAppend | Recette/RecipeViewModel.swift:74-76 | `compactMap` works element by element: it distributes over concatenation |
| Seqs.FilterMapPermutation | Recette/RecipeViewModel.swift:74-76 | reordering the input only reorders what `compactMap` keeps |
| Seqs.FilterMapSkips | Recette/RecipeViewModel.swift:65-76 | leaving out elements that `compactMap` would reject anyway changes nothing |
| Text.RemoveAllAbsent | Recette/ContentView.swift:726 | removing a decoration that does not occur leaves the text unchanged |

## Left out

- SwiftUI layout, navigation, colours and the other screens are declarative UI with no logic to state. These live mostly in ContentView.swift and RecipePostView.swift; SignUpView.swift and PreviewContentView.swift are not part of this model.
- The HealthKit step-count code is left out: it is an external API driven by callbacks and works in floating point.
- Google and Apple sign-in, their delegates, and `FirebaseApp` configuration are left out as foreign calls. A configured store is a boolean parameter; a store answer is a parameter.
- The preview-environment (`XCODE_RUNNING_FOR_PREVIEWS`) branches are left out, along with their demo data. The exceptions are the in-memory like and delete: they are the same list edits the store path makes.
- Timing is left out: `DispatchQueue` delays, snapshot listeners firing again, and concurrent updates. Each completion that takes an answer is a separate function applied to the state it finds.
- RecipeBrowse.MatchesSearch: `localizedCaseInsensitiveContains` is taken as exact substring matching, with no case folding or locale rules.
- StringOrder.Less: Swift `String` `<` is taken as code-point lexicographic order, and `count` as the number of code points. There is no grapheme clustering or Unicode normalisation.
- IntText.ParseInt: `Int(String)` is an optional sign followed by one or more ASCII digits. The 64-bit overflow that makes Swift return `nil` is not modelled.
- ShoppingList.CalculateTotal: `sum + budget` and `sum + calories` are unbounded here, so Swift's overflow trap when a total passes `Int.max` or `Int.min` (ContentView.swift:727 and 736) is not modelled.
- RecipePost.PostRecipe: with no store configured, the source sets `isPosting` and only clears it with the alert in a `DispatchQueue.main.async` block (RecipePostView.swift:300 and 315-321). The model settles that block at once, so the brief posting state between the call and the block is not modelled.
- RecipeStore.LikeLocally: `likes += 1` and `oldLikes + 1` are unbounded here, so Swift's overflow trap at `Int.max` is not modelled.
- RecipeStore.LikeTransaction: `as? Int` is taken to succeed only for stored integers. Firestore's bridging of whole-number doubles is not modelled. The closure also sets the error message from inside the transaction; that value is the same one the completion sets.
- RecipeStore.RecipesQuery: the store's order among documents with equal `createdAt` is unspecified; the model keeps their stored order. The query's other behaviour is as follows:
  - decoding after ordering is modelled as written;
  - documents without a `createdAt` timestamp are excluded, as the store's ordering does;
  - Firestore's cross-type ordering of a `createdAt` of another type is not modelled, since such documents fail to decode anyway.
- RecipeStore.LikedDocuments: the order among documents with equal like counts is left to the sort, and the numeric comparison covers integer likes only.
- Models.Ingredient: the Swift struct's fresh `UUID` is not stored or compared, so it is left out.
- Recipe creation times are whole seconds (`int`), not `Date`.
- The labels the screen puts around the totals are display only: the `¥…-` text around the budget total and the `kcal/1人前` unit after the calorie sum.

=== FILE: auth.dfy ===
/** The authentication view model's email flows as transitions over its
    four published fields. The sign-in after a successful check happens in
    a completion scheduled one second later; here a call returns the state
    right after it and the email that completion will sign in, and
    `Settle` runs the completion. */
module Auth {
  import opened Wrappers

  datatype AuthState = AuthState(
    isAuthenticated: bool,
    currentUser: string,
    isLoading: bool,
    errorMessage: string)

  const MissingCredentials: string := "メールアドレスとパスワードを入力してください"
  const PasswordTooShort: string := "パスワードは6文字以上で入力してください"
  const MinPasswordLength: nat := 6

  /** The view model as created: signed out, no user, idle, no error. */
  function Init(): (s: AuthState)
    ensures !s.isAuthenticated && s.currentUser == "" && !s.isLoading && s.errorMessage == ""
  {
    AuthState(false, "", false, "")
  }

  /** The state a call leaves and, when its checks passed, the email the
      scheduled completion will sign in. */
  datatype Submission = Submission(state: AuthState, pending: Option<string>)

  /** `signUpWithEmail`: loading starts and the error clears; an empty
      email or password, and then a password shorter than six characters,
      each stop loading with their message. Otherwise loading continues
      and the completion is scheduled. Sign-in status and user are left
      alone either way. */
  function SignUpWithEmail(s: AuthState, email: string, password: string): (r: Submission)
    ensures email == "" || password == "" ==>
      r.state == s.(isLoading := false, errorMessage := MissingCredentials) && r.pending == None
    ensures email != "" && password != "" && |password| < MinPasswordLength ==>
      r.state == s.(isLoading := false, errorMessage := PasswordTooShort) && r.pending == None
    ensures r.pending.Some? <==> email != "" && |password| >= MinPasswordLength
    ensures r.pending.Some? ==>
      r.state == s.(isLoading := true, errorMessage := "") && r.pending.value == email
  {
    var started := s.(isLoading := true, errorMessage := "");
    if email == "" || password == "" then
      Submission(started.(isLoading := false, errorMessage := MissingCredentials), None)
    else if |password| < MinPasswordLength then
      Submission(started.(isLoading := false, errorMessage := PasswordTooShort), None)
    else
      Submission(started, Some(email))
  }

  /** `signInWithEmail`: the same, with only the emptiness check. */
  function SignInWithEmail(s: AuthState, email: string, password: string): (r: Submission)
    ensures email == "" || password == "" ==>
      r.state == s.(isLoading := false, errorMessage := MissingCredentials) && r.pending == None
    ensures r.pending.Some? <==> email != "" && password != ""
    ensures r.pending.Some? ==>
      r.state == s.(isLoading := true, errorMessage := "") && r.pending.value == email
  {
    var started := s.(isLoading := true, errorMessage := "");
    if email == "" || password == "" then
      Submission(started.(isLoading := false, errorMessage := MissingCredentials), None)
    else
      Submission(started, Some(email))
  }

  /** The scheduled completion: loading ends and `email` is signed in; the
      error message is left as the call set it. */
  function CompleteEmailAuth(s: AuthState, email: string): (r: AuthState)
    ensures r.isAuthenticated && r.currentUser == email && !r.isLoading
    ensures r.errorMessage == s.errorMessage
  {
    s.(isLoading := false, currentUser := email, isAuthenticated := true)
  }

  /** The state once any scheduled completion has run. */
  function Settle(sub: Submission): AuthState
  {
    match sub.pending
    case Some(email) => CompleteEmailAuth(sub.state, email)
    case None => sub.state
  }

  /** `signOut`: signed out, no user, no error; loading is untouched. */
  function SignOut(s: AuthState): (r: AuthState)
    ensures !r.isAuthenticated && r.currentUser == "" && r.errorMessage == ""
    ensures r.isLoading == s.isLoading
  {
    s.(isAuthenticated := false, currentUser := "", errorMessage := "")
  }

  /** After a sign-up settles nothing is loading; the user is signed in as
      `email` with no error exactly when the email is non-empty and the
      password has six or more characters; otherwise the error says why
      and who was signed in before still is. */
  lemma SignUpOutcome(s: AuthState, email: string, password: string)
    ensures var e := Settle(SignUpWithEmail(s, email, password));
      && !e.isLoading
      && (email != "" && |password| >= MinPasswordLength ==>
            e.isAuthenticated && e.currentUser == email && e.errorMessage == "")
      && (!(email != "" && |password| >= MinPasswordLength) ==>
            e.isAuthenticated == s.isAuthenticated && e.currentUser == s.currentUser
            && e.errorMessage in {MissingCredentials, PasswordTooShort})
  {
  }

  /** Sign-in accepts a short password that sign-up refuses. */
  lemma SignInHasNoLengthRule(s: AuthState, email: string, password: string)
    requires email != "" && 0 < |password| < MinPasswordLength
    ensures Settle(SignInWithEmail(s, email, password)).isAuthenticated
    ensures SignUpWithEmail(s, email, password).state.errorMessage == PasswordTooShort
  {
  }

  /** Signing in on a fresh view model and signing out returns it to how
      it started. */
  lemma SignInThenOut(email: string, password: string)
    ensures SignOut(Settle(SignInWithEmail(Init(), email, password))) == Init()
  {
  }
}

=== FILE: int_text.dfy ===
/** Decimal integers as text: Swift's failable `Int(String)` initialiser and
    the `"\(n)"` rendering. Fixed-width overflow (where `Int(s)` returns nil
    past 64 bits) is not modelled. */
module IntText {
  import opened Wrappers

  predicate IsDigit(c: char)
  {
    '0' <= c <= '9'
  }

  predicate AllDigits(s: string)
  {
    forall i :: 0 <= i < |s| ==> IsDigit(s[i])
  }

  function DigitValue(c: char): nat
    requires IsDigit(c)
  {
    (c as int) - ('0' as int)
  }

  function DigitChar(d: nat): (c: char)
    requires d < 10
    ensures IsDigit(c) && DigitValue(c) == d
  {
    ('0' as int + d) as char
  }

  /** The number a string of decimal digits denotes, most significant first. */
  function DigitsValue(s: string): nat
    requires AllDigits(s)
  {
    if |s| == 0 then 0
    else 10 * DigitsValue(s[..|s| - 1]) + DigitValue(s[|s| - 1])
  }

  /** `Int(s)`: an optional `+` or `-`, then one or more ASCII digits and
      nothing else; any other text is rejected. Leading zeros are allowed. */
  function ParseInt(s: string): (r: Option<int>)
    ensures |s| == 0 ==> r == None
    ensures r.Some? ==> forall i :: 0 < i < |s| ==> IsDigit(s[i])
    ensures r.Some? && r.value < 0 ==> s[0] == '-'
    ensures AllDigits(s) && |s| > 0 ==> r == Some(DigitsValue(s))
  {
    if |s| > 0 && (s[0] == '-' || s[0] == '+') then
      var body := s[1..];
      if |body| > 0 && AllDigits(body) then
        var v: int := DigitsValue(body);
        Some(if s[0] == '-' then -v else v)
      else None
    else if |s| > 0 && AllDigits(s) then Some(DigitsValue(s))
    else None
  }

  /** The decimal digits of `n` without leading zeros. */
  function ShowNat(n: nat): (s: string)
    ensures |s| > 0 && AllDigits(s)
    ensures n > 0 ==> s[0] != '0'
  {
    if n < 10 then [DigitChar(n)]
    else ShowNat(n / 10) + [DigitChar(n % 10)]
  }

  /** `"\(n)"`: a `-` for negative numbers, then the digits. */
  function ShowInt(n: int): (s: string)
    ensures |s| > 0
    ensures n >= 0 ==> AllDigits(s)
  {
    if n < 0 then "-" + ShowNat(-n) else ShowNat(n)
  }

  lemma {:induction false} DigitsOfShowNat(n: nat)
    ensures DigitsValue(ShowNat(n)) == n
    decreases n
  {
    var s := ShowNat(n);
    if n >= 10 {
      DigitsOfShowNat(n / 10);
      assert s[..|s| - 1] == ShowNat(n / 10);
    }
  }

  /** Rendering a number and parsing it back yields the number. */
  lemma ParseShowInt(n: int)
    ensures ParseInt(ShowInt(n)) == Some(n)
  {
    if n < 0 {
      DigitsOfShowNat(-n);
      assert ShowInt(n)[1..] == ShowNat(-n);
    } else {
      DigitsOfShowNat(n);
    }
  }
}

=== FILE: models.dfy ===
/** The app's records (a recipe, its ingredients, a shopping-list line) and
    the dictionary form in which a recipe is written to and read back from
    the document store. */
module Models {
  import opened Wrappers
  import opened Seqs

  /** One line of a recipe's ingredient list. The Swift struct also carries
      a fresh UUID that is never stored; it is left out. */
  datatype Ingredient = Ingredient(name: string, amount: string)

  /** A posted recipe. `createdAt` is a timestamp in seconds. */
  datatype Recipe = Recipe(
    id: string,
    title: string,
    description: string,
    ingredients: seq<Ingredient>,
    instructions: seq<string>,
    cookingTime: string,
    servings: string,
    difficulty: string,
    tags: seq<string>,
    estimatedBudget: string,
    estimatedCalories: string,
    authorId: string,
    authorName: string,
    createdAt: int,
    likes: int,
    isPublic: bool)

  /** One line of the shopping list: the ingredient name (also its id) and
      the amounts to buy, as display text. */
  datatype ShoppingItem = ShoppingItem(id: string, name: string, quantity: string)

  /** `recipes.removeAll { $0.id == id }`: every recipe with that id goes,
      the others stay in order. */
  function RemoveById(recipes: seq<Recipe>, id: string): (r: seq<Recipe>)
    ensures forall x :: x in r <==> x in recipes && x.id != id
    ensures IsSubsequence(r, recipes)
    ensures forall x :: multiset(r)[x] == if x.id == id then 0 else multiset(recipes)[x]
  {
    FilterCounts(recipes, (x: Recipe) => x.id != id);
    Filter(recipes, (x: Recipe) => x.id != id)
  }

  /** Some recipe in `recipes` has the given id. */
  predicate HasId(recipes: seq<Recipe>, id: string)
  {
    exists k :: 0 <= k < |recipes| && recipes[k].id == id
  }

  /** A document-store field value, as far as recipe documents use them. */
  datatype Value =
    | StringValue(str: string)
    | IntValue(number: int)
    | BoolValue(flag: bool)
    | TimestampValue(seconds: int)
    | ArrayValue(items: seq<Value>)
    | MapValue(fields: map<string, Value>)

  type Document = map<string, Value>

  /** The sixteen keys of a stored recipe, one per field. */
  const RecipeKeys: set<string> := {
    "id", "title", "description", "ingredients", "instructions", "cookingTime",
    "servings", "difficulty", "tags", "estimatedBudget", "estimatedCalories",
    "authorId", "authorName", "createdAt", "likes", "isPublic"
  }

  /** `Ingredient.toDictionary()`. */
  function IngredientToDictionary(i: Ingredient): (d: Document)
    ensures d.Keys == {"name", "amount"}
  {
    map["name" := StringValue(i.name), "amount" := StringValue(i.amount)]
  }

  function StringsToValue(xs: seq<string>): Value
  {
    ArrayValue(seq(|xs|, k requires 0 <= k < |xs| => StringValue(xs[k])))
  }

  function IngredientsToValue(xs: seq<Ingredient>): Value
  {
    ArrayValue(seq(|xs|, k requires 0 <= k < |xs| => MapValue(IngredientToDictionary(xs[k]))))
  }

  /** `Recipe.toDictionary()`: every field under its own name, ingredients
      as `{name, amount}` maps and the creation date as a timestamp. */
  function RecipeToDictionary(r: Recipe): (d: Document)
    ensures d.Keys == RecipeKeys
    ensures d["likes"] == IntValue(r.likes) && d["isPublic"] == BoolValue(r.isPublic)
    ensures d["ingredients"].ArrayValue? && |d["ingredients"].items| == |r.ingredients|
    ensures forall k :: 0 <= k < |d["ingredients"].items| ==>
      d["ingredients"].items[k].MapValue? && d["ingredients"].items[k].fields.Keys == {"name", "amount"}
  {
    map[
      "id" := StringValue(r.id),
      "title" := StringValue(r.title),
      "description" := StringValue(r.description),
      "ingredients" := IngredientsToValue(r.ingredients),
      "instructions" := StringsToValue(r.instructions),
      "cookingTime" := StringValue(r.cookingTime),
      "servings" := StringValue(r.servings),
      "difficulty" := StringValue(r.difficulty),
      "tags" := StringsToValue(r.tags),
      "estimatedBudget" := StringValue(r.estimatedBudget),
      "estimatedCalories" := StringValue(r.estimatedCalories),
      "authorId" := StringValue(r.authorId),
      "authorName" := StringValue(r.authorName),
      "createdAt" := TimestampValue(r.createdAt),
      "likes" := IntValue(r.likes),
      "isPublic" := BoolValue(r.isPublic)
    ]
  }

  // Decoding, as `document.data(as: Recipe.self)` does it: every field must
  // be present with the right type; extra keys are ignored.

  /** The document has an integer `likes` field. */
  predicate HasIntLikes(d: Document)
  {
    "likes" in d && d["likes"].IntValue?
  }

  function GetString(d: Document, key: string): Option<string>
  {
    if key in d && d[key].StringValue? then Some(d[key].str) else None
  }

  function DecodeStrings(vs: seq<Value>): (r: Option<seq<string>>)
    ensures r.Some? ==> |r.value| == |vs|
  {
    if |vs| == 0 then Some([])
    else if !vs[0].StringValue? then None
    else
      var rest :- DecodeStrings(vs[1..]);
      Some([vs[0].str] + rest)
  }

  function DecodeIngredient(v: Value): Option<Ingredient>
  {
    if !v.MapValue? then None
    else
      var name :- GetString(v.fields, "name");
      var amount :- GetString(v.fields, "amount");
      Some(Ingredient(name, amount))
  }

  function DecodeIngredients(vs: seq<Value>): (r: Option<seq<Ingredient>>)
    ensures r.Some? ==> |r.value| == |vs|
  {
    if |vs| == 0 then Some([])
    else
      var first :- DecodeIngredient(vs[0]);
      var rest :- DecodeIngredients(vs[1..]);
      Some([first] + rest)
  }

  function GetStrings(d: Document, key: string): Option<seq<string>>
  {
    if key in d && d[key].ArrayValue? then DecodeStrings(d[key].items) else None
  }

  /** A recipe read back from its stored document; `None` when a field is
      missing or has the wrong type. */
  function RecipeFromDictionary(d: Document): (r: Option<Recipe>)
    ensures r.Some? ==> RecipeKeys <= d.Keys
    ensures r.Some? ==> d["likes"] == IntValue(r.value.likes)
    ensures r.Some? ==> d["createdAt"] == TimestampValue(r.value.createdAt)
  {
    var id :- GetString(d, "id");
    var title :- GetString(d, "title");
    var description :- GetString(d, "description");
    var ingredients :- if "ingredients" in d && d["ingredients"].ArrayValue?
      then DecodeIngredients(d["ingredients"].items) else None;
    var instructions :- GetStrings(d, "instructions");
    var cookingTime :- GetString(d, "cookingTime");
    var servings :- GetString(d, "servings");
    var difficulty :- GetString(d, "difficulty");
    var tags :- GetStrings(d, "tags");
    var estimatedBudget :- GetString(d, "estimatedBudget");
    var estimatedCalories :- GetString(d, "estimatedCalories");
    var authorId :- GetString(d, "authorId");
    var authorName :- GetString(d, "authorName");
    var createdAt :- if "createdAt" in d && d["createdAt"].TimestampValue?
      then Some(d["createdAt"].seconds) else None;
    var likes :- if HasIntLikes(d) then Some(d["likes"].number) else None;
    var isPublic :- if "isPublic" in d && d["isPublic"].BoolValue? then Some(d["isPublic"].flag) else None;
    Some(Recipe(id, title, description, ingredients, instructions, cookingTime, servings,
                difficulty, tags, estimatedBudget, estimatedCalories, authorId, authorName,
                createdAt, likes, isPublic))
  }

  lemma {:induction false} DecodeStringsRoundTrip(xs: seq<string>)
    ensures DecodeStrings(StringsToValue(xs).items) == Some(xs)
    decreases |xs|
  {
    if |xs| > 0 {
      DecodeStringsRoundTrip(xs[1..]);
      assert StringsToValue(xs).items[1..] == StringsToValue(xs[1..]).items;
      assert xs == [xs[0]] + xs[1..];
    }
  }

  lemma {:induction false} DecodeIngredientsRoundTrip(xs: seq<Ingredient>)
    ensures DecodeIngredients(IngredientsToValue(xs).items) == Some(xs)
    decreases |xs|
  {
    if |xs| > 0 {
      DecodeIngredientsRoundTrip(xs[1..]);
      assert IngredientsToValue(xs).items[1..] == IngredientsToValue(xs[1..]).items;
      assert xs == [xs[0]] + xs[1..];
    }
  }

  /** Each field of a stored recipe reads back as the value it was written
      from. */
  lemma DictionaryFields(r: Recipe)
    ensures var d := RecipeToDictionary(r);
      && GetString(d, "id") == Some(r.id)
      && GetString(d, "title") == Some(r.title)
      && GetString(d, "description") == Some(r.description)
      && "ingredients" in d && d["ingredients"] == IngredientsToValue(r.ingredients)
      && GetStrings(d, "instructions") == DecodeStrings(StringsToValue(r.instructions).items)
      && GetString(d, "cookingTime") == Some(r.cookingTime)
      && GetString(d, "servings") == Some(r.servings)
      && GetString(d, "difficulty") == Some(r.difficulty)
      && GetStrings(d, "tags") == DecodeStrings(StringsToValue(r.tags).items)
      && GetString(d, "estimatedBudget") == Some(r.estimatedBudget)
      && GetString(d, "estimatedCalories") == Some(r.estimatedCalories)
      && GetString(d, "authorId") == Some(r.authorId)
      && GetString(d, "authorName") == Some(r.authorName)
      && "createdAt" in d && d["createdAt"] == TimestampValue(r.createdAt)
      && "likes" in d && d["likes"] == IntValue(r.likes)
      && "isPublic" in d && d["isPublic"] == BoolValue(r.isPublic)
  {
  }

  /** Decoding reads only the sixteen recipe keys: two documents that agree
      on those decode alike. */
  lemma DecodeReadsRecipeKeys(d: Document, e: Document)
    requires forall k :: k in RecipeKeys ==> (k in d <==> k in e)
    requires forall k :: k in RecipeKeys && k in d ==> d[k] == e[k]
    ensures RecipeFromDictionary(d) == RecipeFromDictionary(e)
  {
    assert "id" in RecipeKeys && "title" in RecipeKeys && "description" in RecipeKeys;
    assert "ingredients" in RecipeKeys && "instructions" in RecipeKeys && "cookingTime" in RecipeKeys;
    assert "servings" in RecipeKeys && "difficulty" in RecipeKeys && "tags" in RecipeKeys;
    assert "estimatedBudget" in RecipeKeys && "estimatedCalories" in RecipeKeys;
    assert "authorId" in RecipeKeys && "authorName" in RecipeKeys && "createdAt" in RecipeKeys;
    assert "likes" in RecipeKeys && "isPublic" in RecipeKeys;
  }

  /** Extra keys are ignored: a stored recipe's document with any other
      fields added still decodes to the same recipe. */
  lemma ExtraKeysIgnored(r: Recipe, extra: Document)
    ensures RecipeFromDictionary(extra + RecipeToDictionary(r)) == Some(r)
  {
    var d := RecipeToDictionary(r);
    DecodeReadsRecipeKeys(extra + d, d);
    RecipeRoundTrip(r);
  }

  /** Writing a recipe and reading the document back gives the same recipe. */
  lemma RecipeRoundTrip(r: Recipe)
    ensures RecipeFromDictionary(RecipeToDictionary(r)) == Some(r)
  {
    DictionaryFields(r);
    DecodeStringsRoundTrip(r.instructions);
    DecodeStringsRoundTrip(r.tags);
    DecodeIngredientsRoundTrip(r.ingredients);
  }
}

=== FILE: recipe_browse.dfy ===
/** The recipe screen's browsing: the keyword search, the tag filter chips
    and the list of every tag offered as a chip. */
module RecipeBrowse {
  import opened Models
  import opened Seqs
  import opened StringOrder
  import opened Text

  /** The keyword occurs in the title, the description or one of the tags.
      Foundation's locale-aware, case-insensitive matching is taken as
      plain substring matching. */
  predicate MatchesSearch(r: Recipe, searchText: string)
  {
    || IsSubstring(searchText, r.title)
    || IsSubstring(searchText, r.description)
    || exists k :: 0 <= k < |r.tags| && IsSubstring(searchText, r.tags[k])
  }

  /** The recipe carries at least one of the selected tags. */
  predicate SharesTag(r: Recipe, selectedTags: set<string>)
  {
    exists k :: 0 <= k < |r.tags| && r.tags[k] in selectedTags
  }

  /** `filteredRecipes`: the search applies only to a non-empty keyword,
      the tag filter only to a non-empty tag selection; what survives keeps
      the loaded order. */
  function FilteredRecipes(recipes: seq<Recipe>, searchText: string, selectedTags: set<string>): (r: seq<Recipe>)
    ensures IsSubsequence(r, recipes)
    ensures forall x :: x in r <==>
      && x in recipes
      && (searchText == [] || MatchesSearch(x, searchText))
      && (selectedTags == {} || SharesTag(x, selectedTags))
    ensures forall x :: (multiset(r)[x] ==
      if (searchText == [] || MatchesSearch(x, searchText)) && (selectedTags == {} || SharesTag(x, selectedTags))
      then multiset(recipes)[x] else 0)
    ensures searchText == [] && selectedTags == {} ==> r == recipes
  {
    var searched := if searchText != [] then Filter(recipes, (x: Recipe) => MatchesSearch(x, searchText)) else recipes;
    FilterCounts(recipes, (x: Recipe) => MatchesSearch(x, searchText));
    SubsequenceReflexive(recipes);
    var tagged := if selectedTags != {} then Filter(searched, (x: Recipe) => SharesTag(x, selectedTags)) else searched;
    FilterCounts(searched, (x: Recipe) => SharesTag(x, selectedTags));
    SubsequenceReflexive(searched);
    SubsequenceTransitive(tagged, searched, recipes);
    tagged
  }

  /** Applying the same filters to their own output changes nothing. */
  lemma FilteredRecipesIdempotent(recipes: seq<Recipe>, searchText: string, selectedTags: set<string>)
    ensures var once := FilteredRecipes(recipes, searchText, selectedTags);
      FilteredRecipes(once, searchText, selectedTags) == once
  {
    var once := FilteredRecipes(recipes, searchText, selectedTags);
    if searchText != [] {
      FilterKeepsAll(once, (x: Recipe) => MatchesSearch(x, searchText));
    }
    if selectedTags != {} {
      FilterKeepsAll(once, (x: Recipe) => SharesTag(x, selectedTags));
    }
  }

  /** Every tag of every recipe, recipe by recipe. */
  function TagsOf(recipes: seq<Recipe>): (r: seq<string>)
    ensures forall t :: t in r <==> exists i :: 0 <= i < |recipes| && t in recipes[i].tags
  {
    if |recipes| == 0 then []
    else
      var rest := TagsOf(recipes[1..]);
      assert forall i :: 0 < i < |recipes| ==> recipes[i] == recipes[1..][i - 1];
      recipes[0].tags + rest
  }

  /** `getAllTags`: the tags of all loaded recipes, each once, ascending. */
  function AllTags(recipes: seq<Recipe>): (r: seq<string>)
    ensures StrictlySorted(r)
    ensures forall t :: t in r <==> exists i :: 0 <= i < |recipes| && t in recipes[i].tags
  {
    SortedSet(TagsOf(recipes))
  }

  /** Tapping a tag chip selects it, or deselects it when it was selected. */
  function ToggleTag(selectedTags: set<string>, tag: string): (r: set<string>)
    ensures tag in r <==> tag !in selectedTags
    ensures forall t :: t != tag ==> (t in r <==> t in selectedTags)
  {
    Toggle(selectedTags, tag)
  }

  /** Tapping the same chip twice leaves the selection as it was. */
  lemma ToggleTagTwice(selectedTags: set<string>, tag: string)
    ensures ToggleTag(ToggleTag(selectedTags, tag), tag) == selectedTags
  {
    ToggleTwice(selectedTags, tag);
  }
}

=== FILE: recipe_post.dfy ===
/** The recipe-posting form: its editable state, the row and tag edits the
    form offers, and the checks `postRecipe` makes before writing the
    recipe to the store. */
module RecipePost {
  import opened Wrappers
  import opened Models
  import opened Seqs
  import opened Text

  /** The form's `@State` fields. */
  datatype PostForm = PostForm(
    title: string,
    description: string,
    ingredients: seq<Ingredient>,
    instructions: seq<string>,
    cookingTime: string,
    servings: string,
    difficulty: string,
    tags: seq<string>,
    newTag: string,
    estimatedBudget: string,
    estimatedCalories: string,
    isPosting: bool,
    showAlert: bool,
    alertMessage: string)

  const TitleMissing: string := "レシピタイトルを入力してください"
  const IngredientsInvalid: string := "材料を正しく入力してください"
  const InstructionsMissing: string := "作り方を入力してください"
  const StoreNotConfigured: string := "Firebaseが初期化されていません"
  const PostSucceeded: string := "レシピの投稿に成功しました！"
  const PostFailedPrefix: string := "投稿に失敗しました: "

  /** The difficulty picker's segments. */
  const DifficultyOptions: seq<string> := ["簡単", "普通", "難しい"]

  /** The form as it opens: one blank ingredient row, one blank step, the
      easiest difficulty, nothing posting. */
  function NewForm(): (r: PostForm)
    ensures WellFormed(r)
    ensures !r.isPosting && !r.showAlert
    ensures Rejection(r) == Some(TitleMissing)
  {
    PostForm("", "", [Ingredient("", "")], [""], "", "", "簡単", [], "", "", "", false, false, "")
  }

  // ---------------------------------------------------------------------
  // Row and tag edits

  /** The ingredient and instruction lists are never empty, no tag is
      listed twice and the difficulty is one of the picker's segments. */
  predicate WellFormed(f: PostForm)
  {
    |f.ingredients| >= 1 && |f.instructions| >= 1 && Distinct(f.tags) && f.difficulty in DifficultyOptions
  }

  /** The tag "add" button: a non-empty tag not yet listed is appended and
      the input cleared; otherwise nothing happens. */
  function AddTag(f: PostForm): (r: PostForm)
    ensures f.newTag != "" && f.newTag !in f.tags ==>
      r == f.(tags := f.tags + [f.newTag], newTag := "")
    ensures f.newTag == "" || f.newTag in f.tags ==> r == f
    ensures Distinct(f.tags) ==> Distinct(r.tags)
  {
    if f.newTag != "" && f.newTag !in f.tags then f.(tags := f.tags + [f.newTag], newTag := "")
    else f
  }

  /** A tag's "×" button: removes every occurrence of that tag and nothing
      else, keeping the others in order. */
  function RemoveTag(f: PostForm, tag: string): (r: PostForm)
    ensures tag !in r.tags
    ensures forall t :: t in f.tags && t != tag ==> t in r.tags
    ensures IsSubsequence(r.tags, f.tags)
    ensures r == f.(tags := r.tags)
  {
    f.(tags := Filter(f.tags, (t: string) => t != tag))
  }

  /** Removing a tag from a duplicate-free list leaves it duplicate-free. */
  lemma RemoveTagKeepsDistinct(f: PostForm, tag: string)
    ensures Distinct(f.tags) ==> Distinct(RemoveTag(f, tag).tags)
  {
    if Distinct(f.tags) {
      SubsequenceOfDistinct(RemoveTag(f, tag).tags, f.tags);
    }
  }

  /** Removing a tag just added gives back the previous tags. */
  lemma AddThenRemoveTag(f: PostForm)
    requires f.newTag != "" && f.newTag !in f.tags
    ensures RemoveTag(AddTag(f), f.newTag).tags == f.tags
  {
    var p := (t: string) => t != f.newTag;
    FilterAppend(f.tags, [f.newTag], p);
    FilterKeepsAll(f.tags, p);
    assert Filter([f.newTag], p) == [];
  }

  /** An ingredient row's "delete" button, shown only while there is more
      than one row; without the button the tap does nothing. */
  function DeleteIngredientRow(f: PostForm, index: nat): (r: PostForm)
    requires index < |f.ingredients|
    ensures |r.ingredients| >= 1
    ensures |f.ingredients| > 1 ==> r == f.(ingredients := RemoveAt(f.ingredients, index))
    ensures |f.ingredients| == 1 ==> r == f
  {
    if |f.ingredients| > 1 then f.(ingredients := RemoveAt(f.ingredients, index)) else f
  }

  /** An instruction row's "delete" button, under the same rule. */
  function DeleteInstructionRow(f: PostForm, index: nat): (r: PostForm)
    requires index < |f.instructions|
    ensures |r.instructions| >= 1
    ensures |f.instructions| > 1 ==> r == f.(instructions := RemoveAt(f.instructions, index))
    ensures |f.instructions| == 1 ==> r == f
  {
    if |f.instructions| > 1 then f.(instructions := RemoveAt(f.instructions, index)) else f
  }

  /** Something the user can do on the form: type into a text field, pick a
      difficulty segment, or press a button. An index names a row on
      screen. */
  datatype Edit =
    | SetTitle(title: string)
    | SetDescription(text: string)
    | SetCookingTime(text: string)
    | SetServings(text: string)
    | PickDifficulty(option: nat)
    | SetEstimatedBudget(text: string)
    | SetEstimatedCalories(text: string)
    | SetNewTag(text: string)
    | TapAddTag
    | TapRemoveTag(tag: string)
    | TapAddIngredient
    | TapDeleteIngredient(row: nat)
    | SetIngredient(row: nat, name: string, amount: string)
    | TapAddInstruction
    | TapDeleteInstruction(row: nat)
    | SetInstruction(row: nat, text: string)

  /** The form after one edit. An index past the last row or the last
      segment names nothing and changes nothing. An edit keeps the form well
      formed and changes each field only through that field's own edits:
      a text field by typing into it, the tag input and the tags through
      the tag field and its buttons, each row list through its add, delete
      and row edits. It never touches the posting state or the alert. */
  function Apply(f: PostForm, e: Edit): (r: PostForm)
    ensures WellFormed(f) ==> WellFormed(r)
    ensures r.isPosting == f.isPosting && r.showAlert == f.showAlert && r.alertMessage == f.alertMessage
    ensures !e.SetTitle? ==> r.title == f.title
    ensures !e.SetDescription? ==> r.description == f.description
    ensures !e.SetCookingTime? ==> r.cookingTime == f.cookingTime
    ensures !e.SetServings? ==> r.servings == f.servings
    ensures !e.PickDifficulty? ==> r.difficulty == f.difficulty
    ensures !e.SetEstimatedBudget? ==> r.estimatedBudget == f.estimatedBudget
    ensures !e.SetEstimatedCalories? ==> r.estimatedCalories == f.estimatedCalories
    ensures !e.SetNewTag? && !e.TapAddTag? ==> r.newTag == f.newTag
    ensures !e.TapAddTag? && !e.TapRemoveTag? ==> r.tags == f.tags
    ensures !e.TapAddIngredient? && !e.TapDeleteIngredient? && !e.SetIngredient? ==>
      r.ingredients == f.ingredients
    ensures !e.TapAddInstruction? && !e.TapDeleteInstruction? && !e.SetInstruction? ==>
      r.instructions == f.instructions
  {
    match e
    case SetTitle(t) => f.(title := t)
    case SetDescription(t) => f.(description := t)
    case SetCookingTime(t) => f.(cookingTime := t)
    case SetServings(t) => f.(servings := t)
    case PickDifficulty(i) =>
      if i < |DifficultyOptions| then f.(difficulty := DifficultyOptions[i]) else f
    case SetEstimatedBudget(t) => f.(estimatedBudget := t)
    case SetEstimatedCalories(t) => f.(estimatedCalories := t)
    case SetNewTag(t) => f.(newTag := t)
    case TapAddTag => AddTag(f)
    case TapRemoveTag(t) =>
      RemoveTagKeepsDistinct(f, t);
      RemoveTag(f, t)
    case TapAddIngredient => f.(ingredients := f.ingredients + [Ingredient("", "")])
    case TapDeleteIngredient(i) =>
      if i < |f.ingredients| then DeleteIngredientRow(f, i) else f
    case SetIngredient(i, n, a) =>
      if i < |f.ingredients| then f.(ingredients := f.ingredients[i := Ingredient(n, a)]) else f
    case TapAddInstruction => f.(instructions := f.instructions + [""])
    case TapDeleteInstruction(i) =>
      if i < |f.instructions| then DeleteInstructionRow(f, i) else f
    case SetInstruction(i, t) =>
      if i < |f.instructions| then f.(instructions := f.instructions[i := t]) else f
  }

  function ApplyAll(f: PostForm, edits: seq<Edit>): PostForm
    decreases |edits|
  {
    if |edits| == 0 then f else ApplyAll(Apply(f, edits[0]), edits[1..])
  }

  /** However the user edits a fresh form, it keeps at least one ingredient
      row and one instruction row, and no duplicate tags. */
  lemma {:induction false} EditsKeepWellFormed(f: PostForm, edits: seq<Edit>)
    requires WellFormed(f)
    ensures WellFormed(ApplyAll(f, edits))
    decreases |edits|
  {
    if |edits| > 0 {
      EditsKeepWellFormed(Apply(f, edits[0]), edits[1..]);
    }
  }

  // ---------------------------------------------------------------------
  // Posting

  predicate IngredientsComplete(ings: seq<Ingredient>)
  {
    |ings| > 0 && forall k :: 0 <= k < |ings| ==> ings[k].name != "" && ings[k].amount != ""
  }

  predicate InstructionsComplete(steps: seq<string>)
  {
    |steps| > 0 && forall k :: 0 <= k < |steps| ==> steps[k] != ""
  }

  /** The form may be posted: a title, complete ingredients, complete steps. */
  predicate Postable(f: PostForm)
  {
    f.title != "" && IngredientsComplete(f.ingredients) && InstructionsComplete(f.instructions)
  }

  /** The alert of the first guard that fails, checked in the order title,
      ingredients, instructions. */
  function Rejection(f: PostForm): (r: Option<string>)
    ensures r.None? <==> Postable(f)
    ensures f.title == "" ==> r == Some(TitleMissing)
    ensures f.title != "" && !IngredientsComplete(f.ingredients) ==> r == Some(IngredientsInvalid)
    ensures f.title != "" && IngredientsComplete(f.ingredients) && !InstructionsComplete(f.instructions) ==>
      r == Some(InstructionsMissing)
  {
    if f.title == "" then Some(TitleMissing)
    else if !IngredientsComplete(f.ingredients) then Some(IngredientsInvalid)
    else if !InstructionsComplete(f.instructions) then Some(InstructionsMissing)
    else None
  }

  /** The recipe `postRecipe` builds from the form: the form's content as
      typed, written by `author` at `now`, public, with no likes yet. It is
      stored in full and reads back unchanged. */
  function NewRecipe(f: PostForm, id: string, author: string, now: int): (r: Recipe)
    ensures r.id == id && r.createdAt == now && r.likes == 0 && r.isPublic
    ensures r.authorId == author && r.authorName == author
    ensures && r.title == f.title && r.description == f.description
            && r.ingredients == f.ingredients && r.instructions == f.instructions
            && r.cookingTime == f.cookingTime && r.servings == f.servings
            && r.difficulty == f.difficulty && r.tags == f.tags
            && r.estimatedBudget == f.estimatedBudget && r.estimatedCalories == f.estimatedCalories
    ensures RecipeFromDictionary(RecipeToDictionary(r)) == Some(r)
  {
    var r := Recipe(id, f.title, f.description, f.ingredients, f.instructions, f.cookingTime, f.servings,
                    f.difficulty, f.tags, f.estimatedBudget, f.estimatedCalories, author, author, now, 0, true);
    RecipeRoundTrip(r);
    r
  }

  /** The form after `postRecipe`, and the recipe it hands to the store if
      it gets that far. */
  datatype PostStep = PostStep(form: PostForm, write: Option<Recipe>)

  /** `postRecipe`. A failing guard raises its alert and changes nothing
      else. Past the guards, posting starts; with no store configured it
      settles at once as not posting with the configuration alert;
      otherwise the new recipe, with no likes, public, written by the
      current user, is sent to the store. */
  function PostRecipe(f: PostForm, storeConfigured: bool, id: string, currentUser: string, now: int): (r: PostStep)
    ensures !Postable(f) ==>
      r.write == None && r.form == f.(alertMessage := Rejection(f).value, showAlert := true)
    ensures r.write.Some? <==> Postable(f) && storeConfigured
    ensures r.form.isPosting && !f.isPosting ==> Postable(f) && storeConfigured
    ensures Postable(f) && !storeConfigured ==>
      r.form == f.(isPosting := false, alertMessage := StoreNotConfigured, showAlert := true)
    ensures Postable(f) && storeConfigured ==> r.form == f.(isPosting := true)
    ensures r.write.Some? ==>
      r.write.value == Recipe(id, f.title, f.description, f.ingredients, f.instructions,
                              f.cookingTime, f.servings, f.difficulty, f.tags,
                              f.estimatedBudget, f.estimatedCalories,
                              currentUser, currentUser, now, 0, true)
  {
    match Rejection(f)
    case Some(message) => PostStep(f.(alertMessage := message, showAlert := true), None)
    case None =>
      if !storeConfigured then
        PostStep(f.(isPosting := false, alertMessage := StoreNotConfigured, showAlert := true), None)
      else
        PostStep(f.(isPosting := true), Some(NewRecipe(f, id, currentUser, now)))
  }

  /** The store's answer to the write: posting ends and the outcome is
      shown, with the store's error description on failure. */
  function PostCompleted(f: PostForm, error: Option<string>): (r: PostForm)
    ensures !r.isPosting && r.showAlert
    ensures error.None? ==> r.alertMessage == PostSucceeded
    ensures error.Some? ==> r.alertMessage == PostFailedPrefix + error.value
    ensures r.(isPosting := f.isPosting, showAlert := f.showAlert, alertMessage := f.alertMessage) == f
  {
    match error
    case None => f.(isPosting := false, alertMessage := PostSucceeded, showAlert := true)
    case Some(e) => f.(isPosting := false, alertMessage := PostFailedPrefix + e, showAlert := true)
  }

  /** The alert's OK button closes the form when the message mentions
      success. */
  predicate ClosesOnOk(f: PostForm)
  {
    IsSubstring("成功", f.alertMessage)
  }

  /** A successful post closes the form on OK. */
  lemma SuccessCloses(f: PostForm)
    ensures ClosesOnOk(PostCompleted(f, None))
  {
    assert PostSucceeded[7..9] == "成功";
    assert OccursAt("成功", PostSucceeded, 7);
  }

  /** A posted form is stored in full and reads back as the form's content,
      by the current user, public and unliked. */
  lemma PostedRecipeRoundTrip(f: PostForm, id: string, currentUser: string, now: int)
    requires Postable(f)
    ensures var w := PostRecipe(f, true, id, currentUser, now).write;
      && w.Some?
      && RecipeToDictionary(w.value).Keys == RecipeKeys
      && RecipeFromDictionary(RecipeToDictionary(w.value))
         == Some(Recipe(id, f.title, f.description, f.ingredients, f.instructions,
                        f.cookingTime, f.servings, f.difficulty, f.tags,
                        f.estimatedBudget, f.estimatedCalories,
                        currentUser, currentUser, now, 0, true))
  {
  }
}

=== FILE: recipe_store.dfy ===
/** The recipe view model: the like counter, deletion, and the two recipe
    queries. The document store is a sequence of documents; each store
    call becomes a function from what the store answers to the view
    model's next state. */
module RecipeStore {
  import opened Wrappers
  import opened Models
  import opened Seqs

  datatype StoreState = StoreState(
    recipes: seq<Recipe>,
    isLoading: bool,
    errorMessage: string,
    likedRecipes: seq<Recipe>)

  const NotConfigured: string := "Firebaseが初期化されていません。アプリを再起動してください。"
  const StoreUnavailable: string := "Firestoreが利用できません。"
  const LoadFailedPrefix: string := "レシピの読み込みに失敗しました: "
  const LikeFailedPrefix: string := "いいねの更新に失敗しました: "
  const InvalidLikes: string := "いいね数が無効です。"
  const DeleteFailedPrefix: string := "レシピの削除に失敗しました: "

  /** The liked-recipes query keeps documents with more than this many
      likes, and at most `LikedLimit` of them. */
  const LikedThreshold: int := 4
  const LikedLimit: nat := 10

  /** `init` when no store is configured: the restart message, nothing
      loaded. */
  function Unconfigured(): (s: StoreState)
    ensures s.recipes == [] && s.likedRecipes == [] && !s.isLoading
    ensures s.errorMessage == NotConfigured
  {
    StoreState([], false, NotConfigured, [])
  }

  // ---------------------------------------------------------------------
  // Likes

  /** `firstIndex(where: { $0.id == id })`. */
  function FirstIndexOf(recipes: seq<Recipe>, id: string): (r: Option<nat>)
    ensures r.None? <==> !HasId(recipes, id)
    ensures r.Some? ==> r.value < |recipes| && recipes[r.value].id == id
    ensures r.Some? ==> forall k :: 0 <= k < r.value ==> recipes[k].id != id
  {
    if |recipes| == 0 then None
    else if recipes[0].id == id then Some(0)
    else
      var i :- FirstIndexOf(recipes[1..], id);
      Some(i + 1)
  }

  /** `toggleLike` on the in-memory list: the first recipe with the id gets
      one more like; no other recipe and no other field changes. */
  function LikeLocally(recipes: seq<Recipe>, id: string): (r: seq<Recipe>)
    ensures |r| == |recipes|
    ensures !HasId(recipes, id) ==> r == recipes
    ensures forall k :: 0 <= k < |r| ==> r[k] == recipes[k].(likes := r[k].likes)
    ensures forall k :: 0 <= k < |r| && r[k].likes != recipes[k].likes ==>
      && r[k].likes == recipes[k].likes + 1
      && recipes[k].id == id
      && forall j :: 0 <= j < k ==> recipes[j].id != id
    ensures HasId(recipes, id) ==>
      var i := FirstIndexOf(recipes, id).value;
      r[i].likes == recipes[i].likes + 1
  {
    match FirstIndexOf(recipes, id)
    case None => recipes
    case Some(i) => recipes[i := recipes[i].(likes := recipes[i].likes + 1)]
  }

  function TotalLikes(recipes: seq<Recipe>): int
  {
    SumOf(recipes, (x: Recipe) => x.likes)
  }

  /** A like adds exactly one to the likes shown in the list when the
      recipe is there, and nothing otherwise. */
  lemma LikeAddsOne(recipes: seq<Recipe>, id: string)
    ensures TotalLikes(LikeLocally(recipes, id)) == TotalLikes(recipes) + (if HasId(recipes, id) then 1 else 0)
  {
    match FirstIndexOf(recipes, id)
    case None =>
    case Some(i) =>
      SumOfUpdate(recipes, i, recipes[i].(likes := recipes[i].likes + 1), (x: Recipe) => x.likes);
  }

  /** What the transaction read for the recipe's document. */
  datatype Fetch = Fetched(data: Option<Document>) | FetchFailed(description: string)

  /** What the transaction does: write the new like count, or fail. */
  datatype LikeOutcome = WriteLikes(likes: int) | LikeFailed(description: string)

  /** The `runTransaction` body: an integer `likes` field is incremented;
      a missing document or a field of another type aborts with the
      invalid-likes message; a failed read aborts with its error. */
  function LikeTransaction(f: Fetch): (r: LikeOutcome)
    ensures r.WriteLikes? <==>
      f.Fetched? && f.data.Some? && HasIntLikes(f.data.value)
    ensures r.WriteLikes? ==> r.likes == f.data.value["likes"].number + 1
    ensures f.FetchFailed? ==> r == LikeFailed(f.description)
    ensures f.Fetched? && r.LikeFailed? ==> r.description == InvalidLikes
  {
    match f
    case FetchFailed(e) => LikeFailed(e)
    case Fetched(data) =>
      if data.Some? && HasIntLikes(data.value) then
        WriteLikes(data.value["likes"].number + 1)
      else
        LikeFailed(InvalidLikes)
  }

  /** The transaction's completion: a failure is shown; success leaves the
      view model alone (the list refreshes through its listener). */
  function LikeCompleted(s: StoreState, outcome: LikeOutcome): (r: StoreState)
    ensures outcome.WriteLikes? ==> r == s
    ensures outcome.LikeFailed? ==> r == s.(errorMessage := LikeFailedPrefix + outcome.description)
  {
    match outcome
    case WriteLikes(_) => s
    case LikeFailed(e) => s.(errorMessage := LikeFailedPrefix + e)
  }

  /** A like on a stored recipe writes one more like, and the updated
      document reads back as that recipe with one more like: the same
      change the in-memory path makes. */
  lemma StoredLikeRoundTrip(r: Recipe)
    ensures var d := RecipeToDictionary(r);
      && LikeTransaction(Fetched(Some(d))) == WriteLikes(r.likes + 1)
      && RecipeFromDictionary(d["likes" := IntValue(r.likes + 1)]) == Some(r.(likes := r.likes + 1))
      && LikeLocally([r], r.id) == [r.(likes := r.likes + 1)]
  {
    var liked := r.(likes := r.likes + 1);
    assert RecipeToDictionary(r)["likes" := IntValue(r.likes + 1)] == RecipeToDictionary(liked);
    RecipeRoundTrip(liked);
  }

  // ---------------------------------------------------------------------
  // Deletion

  /** `deleteRecipe` once the store has answered: on success every recipe
      with the id leaves the list and the rest keep their order; on failure
      the error is shown and the list kept. */
  function DeleteCompleted(s: StoreState, id: string, error: Option<string>): (r: StoreState)
    ensures error.Some? ==> r == s.(errorMessage := DeleteFailedPrefix + error.value)
    ensures error.None? ==> r == s.(recipes := r.recipes)
    ensures error.None? ==> !HasId(r.recipes, id) && IsSubsequence(r.recipes, s.recipes)
    ensures error.None? ==> forall x :: x in s.recipes && x.id != id ==> x in r.recipes
    ensures error.None? ==> forall x :: multiset(r.recipes)[x] == if x.id == id then 0 else multiset(s.recipes)[x]
  {
    match error
    case Some(e) => s.(errorMessage := DeleteFailedPrefix + e)
    case None =>
      var kept := RemoveById(s.recipes, id);
      assert forall k :: 0 <= k < |kept| ==> kept[k] in kept;
      s.(recipes := kept)
  }

  /** Deleting the same recipe twice is the same as deleting it once. */
  lemma DeleteIdempotent(s: StoreState, id: string)
    ensures var once := DeleteCompleted(s, id, None);
      DeleteCompleted(once, id, None) == once
  {
    var kept := RemoveById(s.recipes, id);
    FilterKeepsAll(kept, (x: Recipe) => x.id != id);
  }

  /** Once a recipe is deleted, liking it changes nothing. */
  lemma LikeAfterDelete(s: StoreState, id: string)
    ensures var rs := DeleteCompleted(s, id, None).recipes;
      LikeLocally(rs, id) == rs
  {
  }

  // ---------------------------------------------------------------------
  // Queries

  /** `compactMap { try? $0.data(as: Recipe.self) }`: the documents that
      decode, in order. */
  function DecodeAll(docs: seq<Document>): (r: seq<Recipe>)
    ensures |r| <= |docs|
    ensures forall x :: x in r <==> exists k :: 0 <= k < |docs| && RecipeFromDictionary(docs[k]) == Some(x)
  {
    FilterMapMembers(docs, RecipeFromDictionary);
    FilterMap(docs, RecipeFromDictionary)
  }

  /** Decoding one document yields its recipe, or nothing when it does not
      decode. */
  lemma DecodeAllSingle(d: Document)
    ensures DecodeAll([d]) == if RecipeFromDictionary(d).Some? then [RecipeFromDictionary(d).value] else []
  {
    assert [d][1..] == [];
  }

  /** Decoding works document by document: the recipes of a concatenation
      are those of its parts, in order. With `DecodeAllSingle` this fixes
      the order and the multiplicity of every decoded recipe. */
  lemma DecodeAllAppend(a: seq<Document>, b: seq<Document>)
    ensures DecodeAll(a + b) == DecodeAll(a) + DecodeAll(b)
  {
    FilterMapAppend(a, b, RecipeFromDictionary);
  }

  /** Reordering the documents reorders the decoded recipes and nothing
      more. */
  lemma DecodeAllPermutation(s: seq<Document>, t: seq<Document>)
    requires multiset(s) == multiset(t)
    ensures multiset(DecodeAll(s)) == multiset(DecodeAll(t))
  {
    FilterMapPermutation(s, t, RecipeFromDictionary);
  }

  /** Stored recipes all decode, in the order they were stored. */
  lemma {:induction false} DecodeStored(rs: seq<Recipe>)
    ensures DecodeAll(seq(|rs|, k requires 0 <= k < |rs| => RecipeToDictionary(rs[k]))) == rs
    decreases |rs|
  {
    if |rs| > 0 {
      var docs := seq(|rs|, k requires 0 <= k < |rs| => RecipeToDictionary(rs[k]));
      assert docs[1..] == seq(|rs[1..]|, k requires 0 <= k < |rs[1..]| => RecipeToDictionary(rs[1..][k]));
      RecipeRoundTrip(rs[0]);
      DecodeStored(rs[1..]);
      assert rs == [rs[0]] + rs[1..];
    }
  }

  /** A document's `createdAt` timestamp, and whether it has one; the store
      orders only documents that do. */
  predicate HasCreatedAt(d: Document)
  {
    "createdAt" in d && d["createdAt"].TimestampValue?
  }

  function CreatedAtOf(d: Document): int
  {
    if HasCreatedAt(d) then d["createdAt"].seconds else 0
  }

  /** A document's integer `likes`. */
  function LikesOf(d: Document): int
  {
    if HasIntLikes(d) then d["likes"].number else 0
  }

  /** Decoding drops documents but never reorders them, so documents in
      descending order of a field decode to recipes in descending order of
      that field. */
  lemma {:induction false} DecodeAllDescending(docs: seq<Document>, dk: Document -> int, rk: Recipe -> int)
    requires Descending(docs, dk)
    requires forall d :: RecipeFromDictionary(d).Some? ==> rk(RecipeFromDictionary(d).value) == dk(d)
    ensures Descending(DecodeAll(docs), rk)
    decreases |docs|
  {
    if |docs| > 0 {
      DecodeAllDescending(docs[1..], dk, rk);
      var rest := DecodeAll(docs[1..]);
      forall x | x in rest
        ensures dk(docs[0]) >= rk(x)
      {
        var k :| 0 <= k < |docs[1..]| && RecipeFromDictionary(docs[1..][k]) == Some(x);
        assert docs[1..][k] == docs[k + 1];
      }
    }
  }

  /** A document without a `createdAt` timestamp never decodes. */
  lemma UndatedNeverDecodes()
    ensures forall d :: !HasCreatedAt(d) ==> RecipeFromDictionary(d).None?
  {
    assert "createdAt" in RecipeKeys;
  }

  /** Leaving out the documents without a `createdAt` timestamp changes no
      decoded recipe. */
  lemma DecodeAllSkipsUndated(docs: seq<Document>)
    ensures DecodeAll(Filter(docs, HasCreatedAt)) == DecodeAll(docs)
  {
    UndatedNeverDecodes();
    FilterMapSkips(docs, HasCreatedAt, RecipeFromDictionary);
  }

  /** Ordering the dated documents newest first decodes to the same
      recipes, each as often, as decoding all documents. */
  lemma OrderedDecodeCounts(docs: seq<Document>)
    ensures multiset(DecodeAll(SortDescending(Filter(docs, HasCreatedAt), CreatedAtOf))) == multiset(DecodeAll(docs))
  {
    var withDate := Filter(docs, HasCreatedAt);
    DecodeAllPermutation(SortDescending(withDate, CreatedAtOf), withDate);
    DecodeAllSkipsUndated(docs);
  }

  /** The `recipes` query: documents with a `createdAt` timestamp, newest
      first, decoded. Every decodable document is shown as often as it is
      stored. */
  function RecipesQuery(docs: seq<Document>): (r: seq<Recipe>)
    ensures Descending(r, (x: Recipe) => x.createdAt)
    ensures multiset(r) == multiset(DecodeAll(docs))
    ensures forall x :: x in r <==> exists k :: 0 <= k < |docs| && RecipeFromDictionary(docs[k]) == Some(x)
  {
    var ordered := SortDescending(Filter(docs, HasCreatedAt), CreatedAtOf);
    DecodeAllDescending(ordered, CreatedAtOf, (x: Recipe) => x.createdAt);
    OrderedDecodeCounts(docs);
    assert forall x :: x in DecodeAll(ordered) <==> x in DecodeAll(docs) by {
      forall x ensures x in DecodeAll(ordered) <==> x in DecodeAll(docs) {
        assert x in DecodeAll(ordered) <==> x in multiset(DecodeAll(ordered));
        assert x in DecodeAll(docs) <==> x in multiset(DecodeAll(docs));
      }
    }
    DecodeAll(ordered)
  }

  /** A document the liked query can return: an integer like count above
      the threshold. */
  predicate Qualifies(d: Document)
  {
    HasIntLikes(d) && LikesOf(d) > LikedThreshold
  }

  /** The `likedRecipes` query before decoding: documents whose integer
      like count exceeds the threshold, most liked first, at most ten. */
  function LikedDocuments(docs: seq<Document>): (r: seq<Document>)
    ensures |r| <= LikedLimit
    ensures Descending(r, LikesOf)
    ensures forall d :: d in r ==> d in docs && HasIntLikes(d) && LikesOf(d) > LikedThreshold
  {
    var qualifying := Filter(docs, Qualifies);
    TakeSortedDescending(qualifying, LikesOf, LikedLimit);
    Take(SortDescending(qualifying, LikesOf), LikedLimit)
  }

  /** No qualifying document left out of the liked query has more likes
      than one it shows, and when fewer than ten are shown none was left
      out. */
  lemma LikedDocumentsAreTop(docs: seq<Document>, d: Document)
    requires d in docs && HasIntLikes(d) && LikesOf(d) > LikedThreshold
    ensures var r := LikedDocuments(docs);
      (d !in r ==> |r| == LikedLimit && forall k :: 0 <= k < |r| ==> LikesOf(r[k]) >= LikesOf(d))
  {
    var qualifying := Filter(docs, Qualifies);
    var ordered := SortDescending(qualifying, LikesOf);
    var r := LikedDocuments(docs);
    assert d in qualifying;
    assert d in multiset(ordered);
    var j :| 0 <= j < |ordered| && ordered[j] == d;
    if d !in r {
      assert j >= |r|;
    }
  }

  /** The liked recipes: decoded from the liked documents, so each has
      more than four likes, most liked first, at most ten. */
  function LikedQuery(docs: seq<Document>): (r: seq<Recipe>)
    ensures |r| <= LikedLimit
    ensures Descending(r, (x: Recipe) => x.likes)
    ensures forall x :: x in r ==> x.likes > LikedThreshold
    ensures forall x :: x in r ==> exists k :: 0 <= k < |docs| && RecipeFromDictionary(docs[k]) == Some(x)
  {
    var top := LikedDocuments(docs);
    DecodeAllDescending(top, LikesOf, (x: Recipe) => x.likes);
    var r := DecodeAll(top);
    assert forall x :: x in r ==> x.likes > LikedThreshold by {
      forall x | x in r ensures x.likes > LikedThreshold {
        var k :| 0 <= k < |top| && RecipeFromDictionary(top[k]) == Some(x);
        assert top[k] in top;
      }
    }
    assert forall x :: x in r ==> exists k :: 0 <= k < |docs| && RecipeFromDictionary(docs[k]) == Some(x) by {
      forall x | x in r ensures exists k :: 0 <= k < |docs| && RecipeFromDictionary(docs[k]) == Some(x) {
        var k :| 0 <= k < |top| && RecipeFromDictionary(top[k]) == Some(x);
        assert top[k] in docs;
        var j :| 0 <= j < |docs| && docs[j] == top[k];
      }
    }
    r
  }

  /** A decodable qualifying document whose recipe is not among the liked
      recipes was crowded out: ten documents came back, each with at least
      as many likes. */
  lemma LikedRecipesAreTop(docs: seq<Document>, d: Document)
    requires d in docs && Qualifies(d) && RecipeFromDictionary(d).Some?
    ensures var top := LikedDocuments(docs);
      RecipeFromDictionary(d).value !in LikedQuery(docs) ==>
        |top| == LikedLimit && forall k :: 0 <= k < |top| ==> LikesOf(top[k]) >= LikesOf(d)
  {
    var top := LikedDocuments(docs);
    if d in top {
      var k :| 0 <= k < |top| && top[k] == d;
      assert RecipeFromDictionary(d).value in DecodeAll(top);
    }
    LikedDocumentsAreTop(docs, d);
  }

  /** What a query listener hears: the matching documents, or an error. */
  datatype Snapshot = Documents(docs: seq<Document>) | QueryFailed(description: string)

  /** `loadRecipes` as it returns: with no store the error is shown and
      loading stops; otherwise loading starts with the error cleared. */
  function LoadRecipes(s: StoreState, storeAvailable: bool): (r: StoreState)
    ensures !storeAvailable ==> r == s.(isLoading := false, errorMessage := StoreUnavailable)
    ensures storeAvailable ==> r == s.(isLoading := true, errorMessage := "")
  {
    if storeAvailable then s.(isLoading := true, errorMessage := "")
    else s.(isLoading := false, errorMessage := StoreUnavailable)
  }

  /** The `recipes` listener: loading stops; an error is shown and the list
      kept; otherwise the list becomes the query's answer, newest first. */
  function RecipesLoaded(s: StoreState, snapshot: Snapshot): (r: StoreState)
    ensures !r.isLoading
    ensures snapshot.QueryFailed? ==>
      r == s.(isLoading := false, errorMessage := LoadFailedPrefix + snapshot.description)
    ensures snapshot.Documents? ==> r == s.(isLoading := false, recipes := RecipesQuery(snapshot.docs))
    ensures Descending(r.recipes, (x: Recipe) => x.createdAt) || r.recipes == s.recipes
  {
    match snapshot
    case QueryFailed(e) => s.(isLoading := false, errorMessage := LoadFailedPrefix + e)
    case Documents(docs) => s.(isLoading := false, recipes := RecipesQuery(docs))
  }

  /** The `likedRecipes` listener: an error, or no store at all, leaves the
      state as it was; otherwise the liked list becomes the query's
      answer. */
  function LikedLoaded(s: StoreState, snapshot: Option<Snapshot>): (r: StoreState)
    ensures snapshot.None? || snapshot.value.QueryFailed? ==> r == s
    ensures snapshot.Some? && snapshot.value.Documents? ==>
      r == s.(likedRecipes := LikedQuery(snapshot.value.docs))
    ensures |r.likedRecipes| <= LikedLimit || r == s
  {
    match snapshot
    case Some(Documents(docs)) => s.(likedRecipes := LikedQuery(docs))
    case _ => s
  }

  /** Loading a store written by this app shows every stored recipe,
      newest first. */
  lemma LoadShowsStored(s: StoreState, rs: seq<Recipe>)
    ensures var docs := seq(|rs|, k requires 0 <= k < |rs| => RecipeToDictionary(rs[k]));
      var r := RecipesLoaded(s, Documents(docs));
      && Descending(r.recipes, (x: Recipe) => x.createdAt)
      && multiset(r.recipes) == multiset(rs)
  {
    DecodeStored(rs);
  }
}

=== FILE: seqs.dfy ===
/** Sequence and set operations the views and view models use: Swift's
    `filter` / `removeAll(where:)`, `remove(at:)`, the insert-or-remove toggle
    on a `Set`, `compactMap`, and the descending sort the store queries
    apply. */
module Seqs {
  import opened Wrappers

  /** `xs` can be obtained from `ys` by deleting elements, keeping the order
      of the rest. */
  ghost predicate IsSubsequence<T>(xs: seq<T>, ys: seq<T>)
    decreases |ys|
  {
    if |ys| == 0 then |xs| == 0
    else IsSubsequence(xs, ys[1..]) || (|xs| > 0 && xs[0] == ys[0] && IsSubsequence(xs[1..], ys[1..]))
  }

  lemma {:induction false} SubsequenceTransitive<T>(a: seq<T>, b: seq<T>, c: seq<T>)
    requires IsSubsequence(a, b) && IsSubsequence(b, c)
    ensures IsSubsequence(a, c)
    decreases |c|
  {
    if |c| == 0 {
    } else if IsSubsequence(b, c[1..]) {
      SubsequenceTransitive(a, b, c[1..]);
    } else if IsSubsequence(a, b[1..]) {
      SubsequenceTransitive(a, b[1..], c[1..]);
    } else {
      SubsequenceTransitive(a[1..], b[1..], c[1..]);
    }
  }

  lemma {:induction false} SubsequenceReflexive<T>(a: seq<T>)
    ensures IsSubsequence(a, a)
    decreases |a|
  {
    if |a| > 0 {
      SubsequenceReflexive(a[1..]);
    }
  }

  /** The elements of `s` that satisfy `p`, in their original order
      (Swift `s.filter(p)`; `s.removeAll { !p($0) }` leaves the same). */
  function Filter<T(!new)>(s: seq<T>, p: T -> bool): (r: seq<T>)
    ensures |r| <= |s|
    ensures forall x :: x in r <==> x in s && p(x)
    ensures IsSubsequence(r, s)
  {
    if |s| == 0 then []
    else if p(s[0]) then [s[0]] + Filter(s[1..], p)
    else Filter(s[1..], p)
  }

  /** Filtering keeps every copy of an element that passes: each passing
      element occurs as often as in `s`, every other not at all. */
  lemma {:induction false} FilterCounts<T(!new)>(s: seq<T>, p: T -> bool)
    ensures forall x :: multiset(Filter(s, p))[x] == if p(x) then multiset(s)[x] else 0
    decreases |s|
  {
    if |s| > 0 {
      FilterCounts(s[1..], p);
      assert s == [s[0]] + s[1..];
    }
  }

  lemma {:induction false} FilterAppend<T(!new)>(a: seq<T>, b: seq<T>, p: T -> bool)
    ensures Filter(a + b, p) == Filter(a, p) + Filter(b, p)
    decreases |a|
  {
    if |a| == 0 {
      assert a + b == b;
    } else {
      assert (a + b)[1..] == a[1..] + b;
      FilterAppend(a[1..], b, p);
    }
  }

  /** Filtering keeps everything when every element passes. */
  lemma {:induction false} FilterKeepsAll<T(!new)>(s: seq<T>, p: T -> bool)
    requires forall i :: 0 <= i < |s| ==> p(s[i])
    ensures Filter(s, p) == s
    decreases |s|
  {
    if |s| > 0 {
      FilterKeepsAll(s[1..], p);
    }
  }

  /** No element occurs twice. */
  predicate Distinct<T(==)>(s: seq<T>)
  {
    forall i, j :: 0 <= i < j < |s| ==> s[i] != s[j]
  }

  lemma {:induction false} SubsequenceOfDistinct<T>(xs: seq<T>, ys: seq<T>)
    requires IsSubsequence(xs, ys) && Distinct(ys)
    ensures Distinct(xs)
    decreases |ys|
  {
    if |ys| == 0 {
    } else if IsSubsequence(xs, ys[1..]) {
      SubsequenceOfDistinct(xs, ys[1..]);
    } else {
      SubsequenceOfDistinct(xs[1..], ys[1..]);
      SubsequenceElements(xs[1..], ys[1..]);
      forall j | 0 < j < |xs|
        ensures xs[0] != xs[j]
      {
        assert xs[j] == xs[1..][j - 1];
        assert xs[j] in ys[1..];
      }
    }
  }

  lemma {:induction false} SubsequenceElements<T>(xs: seq<T>, ys: seq<T>)
    requires IsSubsequence(xs, ys)
    ensures forall x :: x in xs ==> x in ys
    decreases |ys|
  {
    if |ys| == 0 {
    } else if IsSubsequence(xs, ys[1..]) {
      SubsequenceElements(xs, ys[1..]);
    } else {
      SubsequenceElements(xs[1..], ys[1..]);
      forall x | x in xs
        ensures x in ys
      {
        if x != xs[0] {
          assert x in xs[1..];
        }
      }
    }
  }

  /** `s` without the element at `i` (Swift `remove(at: i)`). */
  function RemoveAt<T>(s: seq<T>, i: nat): (r: seq<T>)
    requires i < |s|
    ensures |r| == |s| - 1
    ensures forall j :: 0 <= j < i ==> r[j] == s[j]
    ensures forall j :: i <= j < |r| ==> r[j] == s[j + 1]
  {
    s[..i] + s[i + 1..]
  }

  /** Tapping a toggle on a `Set`: remove `x` when present, insert it when
      absent. */
  function Toggle<T(!new)>(s: set<T>, x: T): (r: set<T>)
    ensures x in r <==> x !in s
    ensures forall y :: y != x ==> (y in r <==> y in s)
  {
    if x in s then s - {x} else s + {x}
  }

  lemma ToggleTwice<T(!new)>(s: set<T>, x: T)
    ensures Toggle(Toggle(s, x), x) == s
  {
  }

  /** Ordered by `key`, largest first. */
  predicate Descending<T>(s: seq<T>, key: T -> int)
  {
    forall i, j :: 0 <= i < j < |s| ==> key(s[i]) >= key(s[j])
  }

  /** Places `x` before the first element whose key is not larger than its
      own, so that equal keys keep the order in which they arrived. */
  function InsertDescending<T>(x: T, s: seq<T>, key: T -> int): (r: seq<T>)
    requires Descending(s, key)
    ensures Descending(r, key)
    ensures multiset(r) == multiset(s) + multiset{x}
    ensures |r| == |s| + 1
    ensures r[0] == x || (|s| > 0 && r[0] == s[0])
  {
    if |s| == 0 then [x]
    else if key(s[0]) <= key(x) then [x] + s
    else
      var rest := InsertDescending(x, s[1..], key);
      assert key(s[0]) >= key(rest[0]);
      assert forall j :: 0 <= j < |rest| ==> key(rest[0]) >= key(rest[j]);
      assert s == [s[0]] + s[1..];
      [s[0]] + rest
  }

  /** `s` rearranged largest key first; ties keep their order in `s`. */
  function SortDescending<T>(s: seq<T>, key: T -> int): (r: seq<T>)
    ensures Descending(r, key)
    ensures multiset(r) == multiset(s)
    ensures |r| == |s|
  {
    if |s| == 0 then []
    else
      assert s == [s[0]] + s[1..];
      InsertDescending(s[0], SortDescending(s[1..], key), key)
  }

  /** The first `n` elements, or all of them when there are fewer (Swift
      `prefix(n)`, Firestore `limit(to: n)`). */
  function Take<T>(s: seq<T>, n: nat): (r: seq<T>)
    ensures |r| == if |s| < n then |s| else n
    ensures r == s[..|r|]
  {
    if |s| <= n then s else s[..n]
  }

  /** The first `n` of a descending sort are still descending and are all
      drawn from the input. */
  lemma TakeSortedDescending<T(!new)>(s: seq<T>, key: T -> int, n: nat)
    ensures Descending(Take(SortDescending(s, key), n), key)
    ensures forall x :: x in Take(SortDescending(s, key), n) ==> x in s
  {
    var ordered := SortDescending(s, key);
    var top := Take(ordered, n);
    forall x | x in top
      ensures x in s
    {
      var k :| 0 <= k < |top| && top[k] == x;
      assert ordered[k] == x;
      assert x in multiset(ordered);
    }
  }

  /** `reduce(0) { sum, x in sum + f(x) }`. */
  function SumOf<T>(s: seq<T>, f: T -> int): int
  {
    if |s| == 0 then 0 else SumOf(s[..|s| - 1], f) + f(s[|s| - 1])
  }

  /** A sum splits over concatenation. */
  lemma {:induction false} SumOfAppend<T>(a: seq<T>, b: seq<T>, f: T -> int)
    ensures SumOf(a + b, f) == SumOf(a, f) + SumOf(b, f)
    decreases |b|
  {
    if |b| == 0 {
      assert a + b == a;
    } else {
      assert (a + b)[..|a + b| - 1] == a + b[..|b| - 1];
      SumOfAppend(a, b[..|b| - 1], f);
    }
  }

  lemma {:induction false} SumOfRemoveAt<T>(s: seq<T>, i: nat, f: T -> int)
    requires i < |s|
    ensures SumOf(s, f) == f(s[i]) + SumOf(RemoveAt(s, i), f)
  {
    assert s == s[..i] + [s[i]] + s[i + 1..];
    SumOfAppend(s[..i] + [s[i]], s[i + 1..], f);
    SumOfAppend(s[..i], [s[i]], f);
    SumOfAppend(s[..i], s[i + 1..], f);
    assert SumOf([s[i]], f) == f(s[i]) by {
      assert [s[i]][..0] == [];
    }
  }

  /** Replacing one element changes the sum by the difference. */
  lemma SumOfUpdate<T>(s: seq<T>, i: nat, x: T, f: T -> int)
    requires i < |s|
    ensures SumOf(s[i := x], f) == SumOf(s, f) - f(s[i]) + f(x)
  {
    assert RemoveAt(s[i := x], i) == RemoveAt(s, i);
    SumOfRemoveAt(s, i, f);
    SumOfRemoveAt(s[i := x], i, f);
  }

  /** A sum does not depend on the order of its terms. */
  lemma {:induction false} SumOfPermutation<T>(s: seq<T>, t: seq<T>, f: T -> int)
    requires multiset(s) == multiset(t)
    ensures SumOf(s, f) == SumOf(t, f)
    decreases |s|
  {
    if |s| > 0 {
      var last := s[|s| - 1];
      var init := s[..|s| - 1];
      assert s == init + [last];
      assert last in multiset(t);
      var j :| 0 <= j < |t| && t[j] == last;
      assert t == t[..j] + [t[j]] + t[j + 1..];
      assert multiset(s) == multiset(init) + multiset{last};
      assert multiset(t) == multiset(t[..j]) + multiset{t[j]} + multiset(t[j + 1..]);
      assert RemoveAt(t, j) == t[..j] + t[j + 1..];
      assert multiset(RemoveAt(t, j)) == multiset(t[..j]) + multiset(t[j + 1..]);
      assert multiset(init) == multiset(s) - multiset{last};
      assert multiset(RemoveAt(t, j)) == multiset(t) - multiset{last};
      SumOfPermutation(init, RemoveAt(t, j), f);
      SumOfRemoveAt(t, j, f);
    } else {
      assert |t| == |multiset(t)|;
    }
  }

  /** `compactMap`: the values `f` gives, in order, skipping the elements it
      rejects. */
  function FilterMap<T, U>(s: seq<T>, f: T -> Option<U>): (r: seq<U>)
    ensures |r| <= |s|
  {
    if |s| == 0 then []
    else
      var rest := FilterMap(s[1..], f);
      match f(s[0])
      case Some(y) => [y] + rest
      case None => rest
  }

  /** A value is kept exactly when some element maps to it. */
  lemma {:induction false} FilterMapMembers<T, U(!new)>(s: seq<T>, f: T -> Option<U>)
    ensures forall y :: y in FilterMap(s, f) <==> exists k :: 0 <= k < |s| && f(s[k]) == Some(y)
    decreases |s|
  {
    if |s| > 0 {
      FilterMapMembers(s[1..], f);
      assert forall k :: 0 < k < |s| ==> s[k] == s[1..][k - 1];
    }
  }

  /** Leaving out elements that `f` rejects anyway changes nothing. */
  lemma {:induction false} FilterMapSkips<T(!new), U>(s: seq<T>, p: T -> bool, f: T -> Option<U>)
    requires forall x :: !p(x) ==> f(x).None?
    ensures FilterMap(Filter(s, p), f) == FilterMap(s, f)
    decreases |s|
  {
    if |s| > 0 {
      FilterMapSkips(s[1..], p, f);
      if p(s[0]) {
        assert ([s[0]] + Filter(s[1..], p))[1..] == Filter(s[1..], p);
      }
    }
  }

  /** `compactMap` works element by element: it distributes over
      concatenation. */
  lemma {:induction false} FilterMapAppend<T, U>(a: seq<T>, b: seq<T>, f: T -> Option<U>)
    ensures FilterMap(a + b, f) == FilterMap(a, f) + FilterMap(b, f)
    decreases |a|
  {
    if |a| == 0 {
      assert a + b == b;
    } else {
      assert (a + b)[0] == a[0];
      assert (a + b)[1..] == a[1..] + b;
      FilterMapAppend(a[1..], b, f);
    }
  }

  /** Taking one element out takes its value, if any, out of the result. */
  lemma FilterMapRemoveAt<T, U>(a: seq<T>, x: T, c: seq<T>, f: T -> Option<U>)
    ensures multiset(FilterMap(a + [x] + c, f)) == multiset(FilterMap([x], f)) + multiset(FilterMap(a + c, f))
  {
    FilterMapAppend(a, [x], f);
    FilterMapAppend(a + [x], c, f);
    FilterMapAppend(a, c, f);
  }

  /** Taking the first element out of `s` and an equal one out of a
      permutation `t` leaves permutations. */
  lemma RemoveMatchingHeads<T>(s: seq<T>, t: seq<T>, j: nat)
    requires multiset(s) == multiset(t) && |s| > 0 && j < |t| && t[j] == s[0]
    ensures multiset(s[1..]) == multiset(t[..j] + t[j + 1..])
  {
    assert t == t[..j] + [t[j]] + t[j + 1..];
    assert s == [s[0]] + s[1..];
    assert multiset(t[..j] + t[j + 1..]) == multiset(t[..j]) + multiset(t[j + 1..]);
    assert multiset(t[..j] + t[j + 1..]) == multiset(t) - multiset{s[0]};
  }

  /** Reordering the input only reorders the values `compactMap` keeps. */
  lemma {:induction false} FilterMapPermutation<T, U>(s: seq<T>, t: seq<T>, f: T -> Option<U>)
    requires multiset(s) == multiset(t)
    ensures multiset(FilterMap(s, f)) == multiset(FilterMap(t, f))
    decreases |s|
  {
    if |s| == 0 {
      assert |t| == |multiset(t)|;
    } else {
      var d, tail := s[0], s[1..];
      assert d in multiset(t);
      var j :| 0 <= j < |t| && t[j] == d;
      var a, c := t[..j], t[j + 1..];
      assert t == a + [d] + c;
      assert s == [] + [d] + tail;
      assert [] + tail == tail;
      RemoveMatchingHeads(s, t, j);
      FilterMapPermutation(tail, a + c, f);
      FilterMapRemoveAt([], d, tail, f);
      FilterMapRemoveAt(a, d, c, f);
    }
  }
}

=== FILE: shopping_list.dfy ===
/** The shopping-list screen: choosing recipes, merging their ingredients
    into one list, ticking off what is already at home, and the budget and
    calorie totals. Amounts of one ingredient are joined as text, never
    added; the totals are plain sums over the selected recipes. */
module ShoppingList {
  import opened Wrappers
  import opened Models
  import opened Seqs
  import opened StringOrder
  import opened Text
  import opened IntText

  // ---------------------------------------------------------------------
  // Recipe selection

  /** The select button: a recipe whose id is already selected is dropped
      (every entry with that id); otherwise it is appended at the end. */
  function ToggleSelection(selected: seq<Recipe>, recipe: Recipe): (r: seq<Recipe>)
    ensures HasId(selected, recipe.id) ==>
      && !HasId(r, recipe.id)
      && IsSubsequence(r, selected)
      && (forall x :: x in selected && x.id != recipe.id ==> x in r)
      && (forall x :: multiset(r)[x] == if x.id == recipe.id then 0 else multiset(selected)[x])
    ensures !HasId(selected, recipe.id) ==>
      |r| == |selected| + 1 && r[..|selected|] == selected && r[|selected|] == recipe
  {
    if HasId(selected, recipe.id) then RemoveById(selected, recipe.id) else selected + [recipe]
  }

  /** Selecting a recipe and pressing the button again restores the
      previous selection. */
  lemma SelectThenDeselect(selected: seq<Recipe>, recipe: Recipe)
    requires !HasId(selected, recipe.id)
    ensures ToggleSelection(ToggleSelection(selected, recipe), recipe) == selected
  {
    var p := (x: Recipe) => x.id != recipe.id;
    assert HasId(selected + [recipe], recipe.id) by {
      assert (selected + [recipe])[|selected|].id == recipe.id;
    }
    FilterAppend(selected, [recipe], p);
    FilterKeepsAll(selected, p);
    assert Filter([recipe], p) == [];
  }

  // ---------------------------------------------------------------------
  // Merging ingredients

  /** The ingredients of the selected recipes: recipe by recipe in selection
      order, each recipe's list in its own order. */
  function SelectedIngredients(selected: seq<Recipe>): (r: seq<Ingredient>)
    ensures forall x :: x in r <==> exists i :: 0 <= i < |selected| && x in selected[i].ingredients
  {
    if |selected| == 0 then []
    else
      var rest := SelectedIngredients(selected[1..]);
      assert forall i :: 0 < i < |selected| ==> selected[i] == selected[1..][i - 1];
      selected[0].ingredients + rest
  }

  /** One recipe contributes its own ingredient list, in its order. */
  lemma SelectedIngredientsSingle(x: Recipe)
    ensures SelectedIngredients([x]) == x.ingredients
  {
    assert [x][1..] == [];
    assert x.ingredients + [] == x.ingredients;
  }

  /** Selecting more recipes appends their ingredients after those already
      selected: with `SelectedIngredientsSingle`, the folded list is the
      selected recipes' lists in selection order, each in its own order. */
  lemma {:induction false} SelectedIngredientsAppend(a: seq<Recipe>, b: seq<Recipe>)
    ensures SelectedIngredients(a + b) == SelectedIngredients(a) + SelectedIngredients(b)
    decreases |a|
  {
    if |a| == 0 {
      assert a + b == b;
    } else {
      assert (a + b)[0] == a[0];
      assert (a + b)[1..] == a[1..] + b;
      SelectedIngredientsAppend(a[1..], b);
    }
  }

  /** Adds one ingredient to the dictionary keyed by name: a new name gets
      its amount, a known name keeps what it had with `" + "` and the amount
      appended; every other entry stays as it was. */
  function Merge(m: map<string, string>, ing: Ingredient): (r: map<string, string>)
    ensures r.Keys == m.Keys + {ing.name}
    ensures ing.name !in m ==> r[ing.name] == ing.amount
    ensures ing.name in m ==> r[ing.name] == m[ing.name] + Separator + ing.amount
    ensures forall n :: n in m && n != ing.name ==> r[n] == m[n]
  {
    if ing.name in m then m[ing.name := m[ing.name] + Separator + ing.amount]
    else m[ing.name := ing.amount]
  }

  /** The dictionary after folding `Merge` over the ingredients in order.
      Its keys are exactly the names that occur. */
  function Accumulate(ings: seq<Ingredient>): (r: map<string, string>)
    ensures forall n :: n in r <==> Mentions(ings, n)
    decreases |ings|
  {
    if |ings| == 0 then map[]
    else
      MentionsSnoc(ings);
      Merge(Accumulate(ings[..|ings| - 1]), ings[|ings| - 1])
  }

  /** A name occurs in a non-empty list exactly when it occurs before the
      last ingredient or names the last ingredient. */
  lemma MentionsSnoc(ings: seq<Ingredient>)
    requires |ings| > 0
    ensures forall n :: Mentions(ings, n) <==>
      Mentions(ings[..|ings| - 1], n) || n == ings[|ings| - 1].name
  {
    var init := ings[..|ings| - 1];
    forall n
      ensures Mentions(ings, n) <==> Mentions(init, n) || n == ings[|ings| - 1].name
    {
      if Mentions(init, n) {
        var k :| 0 <= k < |init| && init[k].name == n;
        assert ings[k] == init[k];
      }
      if Mentions(ings, n) && n != ings[|ings| - 1].name {
        var k :| 0 <= k < |ings| && ings[k].name == n;
        assert k < |init| && init[k] == ings[k];
      }
    }
  }

  function Named(name: string): Ingredient -> bool
  {
    (x: Ingredient) => x.name == name
  }

  function AmountsOf(ings: seq<Ingredient>): (r: seq<string>)
    ensures |r| == |ings|
  {
    seq(|ings|, k requires 0 <= k < |ings| => ings[k].amount)
  }

  /** What the list should show for `name`: the amount of every ingredient
      so named, in order, with `" + "` between them. */
  function QuantityFor(ings: seq<Ingredient>, name: string): string
  {
    Join(AmountsOf(Filter(ings, Named(name))))
  }

  /** Some ingredient in `ings` is called `name`. */
  predicate Mentions(ings: seq<Ingredient>, name: string)
  {
    exists k :: 0 <= k < |ings| && ings[k].name == name
  }

  lemma JoinSnoc(parts: seq<string>, last: string)
    ensures Join(parts + [last]) == if |parts| == 0 then last else Join(parts) + Separator + last
  {
    assert (parts + [last])[..|parts|] == parts;
  }

  /** A name occurs exactly when filtering by it leaves something. */
  lemma MentionsIffFiltered(ings: seq<Ingredient>, n: string)
    ensures Mentions(ings, n) <==> |Filter(ings, Named(n))| > 0
  {
    var f := Filter(ings, Named(n));
    if |f| > 0 {
      assert f[0] in f;
      var k :| 0 <= k < |ings| && ings[k] == f[0];
    }
  }

  /** One ingredient more: the joined amounts for `n` gain `last.amount`
      when it is so named and stay as they were otherwise. */
  lemma QuantityForSnoc(init: seq<Ingredient>, last: Ingredient, n: string)
    ensures QuantityFor(init + [last], n) ==
      if last.name != n then QuantityFor(init, n)
      else if Mentions(init, n) then QuantityFor(init, n) + Separator + last.amount
      else last.amount
  {
    FilterAppend(init, [last], Named(n));
    var before := Filter(init, Named(n));
    MentionsIffFiltered(init, n);
    if last.name == n {
      assert Filter([last], Named(n)) == [last];
      assert AmountsOf(before + [last]) == AmountsOf(before) + [last.amount];
      JoinSnoc(AmountsOf(before), last.amount);
    } else {
      assert Filter([last], Named(n)) == [];
      assert before + [] == before;
    }
  }

  /** Under each name the dictionary holds the amounts of the ingredients
      so named, in order, joined with `" + "`; it never adds amounts up. */
  lemma {:induction false} AccumulateJoinsAmounts(ings: seq<Ingredient>)
    ensures forall n :: n in Accumulate(ings) ==> Accumulate(ings)[n] == QuantityFor(ings, n)
    decreases |ings|
  {
    if |ings| > 0 {
      var init := ings[..|ings| - 1];
      var last := ings[|ings| - 1];
      assert ings == init + [last];
      assert Accumulate(ings) == Merge(Accumulate(init), last);
      AccumulateJoinsAmounts(init);
      forall n | n in Accumulate(ings)
        ensures Accumulate(ings)[n] == QuantityFor(ings, n)
      {
        QuantityForSnoc(init, last, n);
      }
    }
  }

  /** `items` is the list the screen shows for `selected`: ascending by
      name with no name twice, one line per ingredient name that occurs,
      each line's id equal to its name and its quantity the joined amounts. */
  ghost predicate IsShoppingList(selected: seq<Recipe>, items: seq<ShoppingItem>)
  {
    var ings := SelectedIngredients(selected);
    && SortedByName(items)
    && (forall i :: 0 <= i < |items| ==>
          items[i].id == items[i].name && items[i].quantity == QuantityFor(ings, items[i].name))
    && (forall n :: (exists i :: 0 <= i < |items| && items[i].name == n) <==> Mentions(ings, n))
  }

  /** `allIngredients.map { … }`: one item per listed name, its id and
      name the key and its quantity the dictionary's entry. */
  function ItemsOf(all: map<string, string>, names: seq<string>): (items: seq<ShoppingItem>)
    requires forall k :: 0 <= k < |names| ==> names[k] in all
    ensures |items| == |names|
    ensures forall i :: 0 <= i < |names| ==> items[i] == ShoppingItem(names[i], names[i], all[names[i]])
  {
    seq(|names|, i requires 0 <= i < |names| => ShoppingItem(names[i], names[i], all[names[i]]))
  }

  /** Listing the dictionary's keys in ascending order, each with its
      entry, gives the shopping list of the selection. */
  lemma SortedKeysMakeShoppingList(selected: seq<Recipe>, names: seq<string>)
    requires StrictlySorted(names)
    requires forall n :: n in names <==> n in Accumulate(SelectedIngredients(selected))
    ensures IsShoppingList(selected, ItemsOf(Accumulate(SelectedIngredients(selected)), names))
  {
    var ings := SelectedIngredients(selected);
    var all := Accumulate(ings);
    AccumulateJoinsAmounts(ings);
    var items := ItemsOf(all, names);
    forall n
      ensures (exists i :: 0 <= i < |items| && items[i].name == n) <==> Mentions(ings, n)
    {
      if n in all {
        var i :| 0 <= i < |names| && names[i] == n;
        assert items[i].name == n;
      }
    }
  }

  /** `updateShoppingItems`: fold the selected recipes' ingredients into a
      dictionary keyed by name, then list its entries sorted by name. The
      dictionary's iteration order is unspecified, so keys are taken in an
      arbitrary order and inserted into a sorted list. */
  method UpdateShoppingItems(selected: seq<Recipe>) returns (items: seq<ShoppingItem>)
    ensures IsShoppingList(selected, items)
    ensures |selected| == 0 ==> items == []
  {
    var all := Accumulate(SelectedIngredients(selected));
    var pending := all.Keys;
    var names: seq<string> := [];
    while pending != {}
      invariant pending <= all.Keys
      invariant StrictlySorted(names)
      invariant forall n :: n in names <==> n in all && n !in pending
      decreases pending
    {
      var k :| k in pending;
      names := Insert(k, names);
      pending := pending - {k};
    }
    if |names| > 0 {
      assert names[0] in all;
    }
    items := ItemsOf(all, names);
    SortedKeysMakeShoppingList(selected, names);
  }

  /** Every selection has exactly one shopping list: recomputing it with
      the same selection gives the same lines in the same order. */
  lemma {:induction false} ShoppingListUnique(selected: seq<Recipe>, a: seq<ShoppingItem>, b: seq<ShoppingItem>)
    requires IsShoppingList(selected, a) && IsShoppingList(selected, b)
    ensures a == b
  {
    var na := seq(|a|, i requires 0 <= i < |a| => a[i].name);
    var nb := seq(|b|, i requires 0 <= i < |b| => b[i].name);
    forall n
      ensures n in na <==> n in nb
    {
      if n in na {
        var i :| 0 <= i < |na| && na[i] == n;
        assert a[i].name == n;
        assert Mentions(SelectedIngredients(selected), n);
        var j :| 0 <= j < |b| && b[j].name == n;
        assert nb[j] == n;
      }
      if n in nb {
        var i :| 0 <= i < |nb| && nb[i] == n;
        assert b[i].name == n;
        assert Mentions(SelectedIngredients(selected), n);
        var j :| 0 <= j < |a| && a[j].name == n;
        assert na[j] == n;
      }
    }
    StrictlySortedUnique(na, nb);
    assert |a| == |b|;
    forall i | 0 <= i < |a|
      ensures a[i] == b[i]
    {
      assert na[i] == nb[i];
    }
  }

  // ---------------------------------------------------------------------
  // Ticking off items

  /** Tapping an item's circle on page 2 toggles its id in the checked set. */
  function ToggleChecked(checked: set<string>, item: ShoppingItem): (r: set<string>)
    ensures item.id in r <==> item.id !in checked
    ensures forall id :: id != item.id ==> (id in r <==> id in checked)
  {
    Toggle(checked, item.id)
  }

  /** Page 3's list: the items whose id is not checked, in list order. */
  function UncheckedItems(items: seq<ShoppingItem>, checked: set<string>): (r: seq<ShoppingItem>)
    ensures forall x :: x in r <==> x in items && x.id !in checked
    ensures IsSubsequence(r, items)
    ensures forall x :: multiset(r)[x] == if x.id in checked then 0 else multiset(items)[x]
  {
    FilterCounts(items, (x: ShoppingItem) => x.id !in checked);
    Filter(items, (x: ShoppingItem) => x.id !in checked)
  }

  predicate SortedByName(items: seq<ShoppingItem>)
  {
    forall i, j :: 0 <= i < j < |items| ==> Less(items[i].name, items[j].name)
  }

  lemma {:induction false} SubsequenceSortedByName(xs: seq<ShoppingItem>, ys: seq<ShoppingItem>)
    requires IsSubsequence(xs, ys) && SortedByName(ys)
    ensures SortedByName(xs)
    decreases |ys|
  {
    if |ys| == 0 {
    } else if IsSubsequence(xs, ys[1..]) {
      SubsequenceSortedByName(xs, ys[1..]);
    } else {
      SubsequenceSortedByName(xs[1..], ys[1..]);
      SubsequenceElements(xs[1..], ys[1..]);
      forall j | 0 < j < |xs|
        ensures Less(xs[0].name, xs[j].name)
      {
        assert xs[j] == xs[1..][j - 1];
        assert xs[j] in ys[1..];
        var k :| 0 <= k < |ys[1..]| && ys[1..][k] == xs[j];
        assert ys[k + 1] == xs[j];
      }
    }
  }

  /** The still-to-buy list keeps the shopping list's name order. */
  lemma UncheckedStaysSorted(items: seq<ShoppingItem>, checked: set<string>)
    requires SortedByName(items)
    ensures SortedByName(UncheckedItems(items, checked))
  {
    SubsequenceSortedByName(UncheckedItems(items, checked), items);
  }

  // ---------------------------------------------------------------------
  // Totals

  /** Deleting two patterns that do not occur leaves the text as it is. */
  lemma RemoveBothAbsent(s: string, p: string, q: string)
    ensures !IsSubstring(p, s) && !IsSubstring(q, s) ==> RemoveAll(RemoveAll(s, p), q) == s
  {
    if !IsSubstring(p, s) && !IsSubstring(q, s) {
      RemoveAllAbsent(s, p);
      RemoveAllAbsent(s, q);
    }
  }

  /** A recipe's budget as counted: `円` and `¥` removed, the rest read
      with `Int(_:)`, 0 when that fails. A budget without either mark is
      read as written. */
  function BudgetOf(r: Recipe): (b: int)
    ensures !IsSubstring("円", r.estimatedBudget) && !IsSubstring("¥", r.estimatedBudget) ==>
      b == ParseInt(r.estimatedBudget).GetOr(0)
  {
    RemoveBothAbsent(r.estimatedBudget, "円", "¥");
    ParseInt(RemoveAll(RemoveAll(r.estimatedBudget, "円"), "¥")).GetOr(0)
  }

  /** A recipe's calories as counted: `kcal` and `,` removed, the rest read
      with `Int(_:)`, 0 when that fails. Calories without either are read
      as written. */
  function CaloriesOf(r: Recipe): (c: int)
    ensures !IsSubstring("kcal", r.estimatedCalories) && !IsSubstring(",", r.estimatedCalories) ==>
      c == ParseInt(r.estimatedCalories).GetOr(0)
  {
    RemoveBothAbsent(r.estimatedCalories, "kcal", ",");
    ParseInt(RemoveAll(RemoveAll(r.estimatedCalories, "kcal"), ",")).GetOr(0)
  }

  method CalculateTotal(selected: seq<Recipe>, f: Recipe -> int) returns (text: string)
    ensures text == ShowInt(SumOf(selected, f))
  {
    var total := 0;
    var i := 0;
    while i < |selected|
      invariant 0 <= i <= |selected|
      invariant total == SumOf(selected[..i], f)
    {
      assert selected[..i + 1][..i] == selected[..i];
      total := total + f(selected[i]);
      i := i + 1;
    }
    assert selected[..|selected|] == selected;
    text := ShowInt(total);
  }

  /** `calculateTotalBudget`: the decimal text of the summed budgets. */
  method CalculateTotalBudget(selected: seq<Recipe>) returns (text: string)
    ensures ParseInt(text) == Some(SumOf(selected, BudgetOf))
  {
    text := CalculateTotal(selected, BudgetOf);
    ParseShowInt(SumOf(selected, BudgetOf));
  }

  /** `calculateTotalCalories`: the decimal text of the summed calories,
      a plain sum over the selection, not an average per serving. */
  method CalculateTotalCalories(selected: seq<Recipe>) returns (text: string)
    ensures ParseInt(text) == Some(SumOf(selected, CaloriesOf))
  {
    text := CalculateTotal(selected, CaloriesOf);
    ParseShowInt(SumOf(selected, CaloriesOf));
  }

  /** A budget written as a number, with `円` after it or `¥` before it,
      counts as that number. */
  lemma BudgetOfDecorated(r: Recipe, n: int)
    requires r.estimatedBudget == ShowInt(n) + "円" || r.estimatedBudget == "¥" + ShowInt(n)
    ensures BudgetOf(r) == n
  {
    var digits := ShowInt(n);
    assert '円' !in digits && '¥' !in digits by {
      if n < 0 {
        assert digits == "-" + ShowNat(-n);
      }
    }
    RemoveAllAfter(digits, [], "円");
    RemoveAllAfter(digits, [], "¥");
    assert digits + [] == digits;
    if r.estimatedBudget == digits + "円" {
      RemoveAllAfter(digits, "円", "円");
      assert "円"[..1] == "円";
    } else {
      RemoveAllAfter("¥" + digits, [], "円");
      assert "¥" + digits + [] == "¥" + digits;
      assert ("¥" + digits)[..1] == "¥" && ("¥" + digits)[1..] == digits;
    }
    ParseShowInt(n);
  }

  /** Calories written as a number followed by `kcal` count as that
      number. */
  lemma CaloriesOfDecorated(r: Recipe, n: int)
    requires r.estimatedCalories == ShowInt(n) + "kcal"
    ensures CaloriesOf(r) == n
  {
    var digits := ShowInt(n);
    assert 'k' !in digits && ',' !in digits by {
      if n < 0 {
        assert digits == "-" + ShowNat(-n);
      }
    }
    RemoveAllAfter(digits, "kcal", "kcal");
    assert "kcal"[..4] == "kcal" && "kcal"[4..] == [];
    RemoveAllAfter(digits, [], ",");
    assert digits + [] == digits;
    ParseShowInt(n);
  }

  lemma StripKcal()
    ensures RemoveAll("1,200kcal", "kcal") == "1,200"
  {
    assert "1,200kcal" == "1,200" + "kcal";
    RemoveAllAfter("1,200", "kcal", "kcal");
    assert "kcal"[..4] == "kcal" && "kcal"[4..] == [];
    assert "1,200" + [] == "1,200";
  }

  lemma StripComma()
    ensures RemoveAll("1,200", ",") == "1200"
  {
    assert "1,200" == "1" + ",200";
    RemoveAllAfter("1", ",200", ",");
    assert ",200"[..1] == "," && ",200"[1..] == "200";
    RemoveAllAfter("200", [], ",");
    assert "200" + [] == "200";
    assert "1" + "200" == "1200";
  }

  lemma ParseTwelveHundred()
    ensures ParseInt("1200") == Some(1200)
  {
    assert AllDigits("1200");
    assert "1200"[..3] == "120" && "120"[..2] == "12" && "12"[..1] == "1" && "1"[..0] == "";
    assert DigitsValue("1200") == 1200;
  }

  /** Calories written with a thousands comma and `kcal` lose both before
      being read, so `1,200kcal` counts as 1200. */
  lemma CaloriesOfThousandsComma(r: Recipe)
    requires r.estimatedCalories == "1,200kcal"
    ensures CaloriesOf(r) == 1200
  {
    StripKcal();
    StripComma();
    ParseTwelveHundred();
  }

  /** A trailing `-`, as the screen itself prints after a total, makes a
      budget unreadable, so it counts 0. */
  lemma BudgetOfTrailingDash(r: Recipe)
    requires r.estimatedBudget == "¥1000-"
    ensures BudgetOf(r) == 0
  {
    var s := r.estimatedBudget;
    RemoveAllAfter(s, [], "円");
    assert s + [] == s;
    assert s[..1] == "¥" && s[1..] == "1000-";
    RemoveAllAfter("1000-", [], "¥");
    assert "1000-" + [] == "1000-";
    assert !IsDigit("1000-"[4]);
  }

  /** A thousands comma makes a budget unreadable too, since only calories
      have commas stripped. */
  lemma BudgetOfThousandsComma(r: Recipe)
    requires r.estimatedBudget == "1,000円"
    ensures BudgetOf(r) == 0
  {
    assert r.estimatedBudget == "1,000" + "円";
    RemoveAllAfter("1,000", "円", "円");
    assert "円"[..1] == "円" && "円"[1..] == [];
    RemoveAllAfter("1,000", [], "¥");
    assert "1,000" + [] == "1,000";
    assert !IsDigit("1,000"[1]);
  }
}

=== FILE: string_order.dfy ===
/** The order Swift's `String <` imposes, taken here as lexicographic order
    on code points, with sorted, duplicate-free string lists built by
    insertion. */
module StringOrder {

  /** `a` sorts strictly before `b`: at the first differing position `a`
      has the smaller character, or `a` is a proper prefix of `b`. */
  predicate Less(a: string, b: string)
  {
    if |b| == 0 then false
    else if |a| == 0 then true
    else if a[0] != b[0] then a[0] < b[0]
    else Less(a[1..], b[1..])
  }

  lemma {:induction false} LessIrreflexive(a: string)
    ensures !Less(a, a)
    decreases |a|
  {
    if |a| > 0 {
      LessIrreflexive(a[1..]);
    }
  }

  lemma {:induction false} LessTransitive(a: string, b: string, c: string)
    requires Less(a, b) && Less(b, c)
    ensures Less(a, c)
    decreases |a|
  {
    if |a| > 0 && a[0] == b[0] && b[0] == c[0] {
      LessTransitive(a[1..], b[1..], c[1..]);
    }
  }

  lemma {:induction false} LessAsymmetric(a: string, b: string)
    requires Less(a, b)
    ensures !Less(b, a)
    decreases |a|
  {
    if |a| > 0 && a[0] == b[0] {
      LessAsymmetric(a[1..], b[1..]);
    }
  }

  /** Any two different strings are ordered one way or the other. */
  lemma {:induction false} LessTotal(a: string, b: string)
    requires a != b
    ensures Less(a, b) || Less(b, a)
    decreases |a|
  {
    if |a| > 0 && |b| > 0 && a[0] == b[0] {
      assert a == [a[0]] + a[1..] && b == [b[0]] + b[1..];
      LessTotal(a[1..], b[1..]);
    }
  }

  /** Ascending without repeats. */
  predicate StrictlySorted(xs: seq<string>)
  {
    forall i, j :: 0 <= i < j < |xs| ==> Less(xs[i], xs[j])
  }

  /** Strictly sorted lists hold no string twice. */
  lemma StrictlySortedIsDistinct(xs: seq<string>)
    requires StrictlySorted(xs)
    ensures forall i, j :: 0 <= i < j < |xs| ==> xs[i] != xs[j]
  {
    forall i, j | 0 <= i < j < |xs|
      ensures xs[i] != xs[j]
    {
      LessIrreflexive(xs[i]);
    }
  }

  /** `x` placed into the strictly sorted `xs` at its position. */
  function Insert(x: string, xs: seq<string>): (r: seq<string>)
    requires StrictlySorted(xs)
    requires x !in xs
    ensures StrictlySorted(r)
    ensures forall y :: y in r <==> y in xs || y == x
    ensures |r| == |xs| + 1
  {
    if |xs| == 0 then [x]
    else if Less(x, xs[0]) then
      assert forall j :: 0 <= j < |xs| ==> Less(x, xs[j]) by {
        forall j | 0 < j < |xs|
          ensures Less(x, xs[j])
        {
          LessTransitive(x, xs[0], xs[j]);
        }
      }
      [x] + xs
    else
      LessTotal(x, xs[0]);
      var rest := Insert(x, xs[1..]);
      assert forall j :: 0 <= j < |rest| ==> Less(xs[0], rest[j]) by {
        forall j | 0 <= j < |rest|
          ensures Less(xs[0], rest[j])
        {
          assert rest[j] in rest;
        }
      }
      [xs[0]] + rest
  }

  /** `x` added to a strictly sorted list unless it is already there. */
  function AddUnique(x: string, xs: seq<string>): (r: seq<string>)
    requires StrictlySorted(xs)
    ensures StrictlySorted(r)
    ensures forall y :: y in r <==> y in xs || y == x
  {
    if x in xs then xs else Insert(x, xs)
  }

  /** The strings of `xs` without repeats, ascending: what Swift's
      `Array(Set(xs)).sorted()` returns. */
  function SortedSet(xs: seq<string>): (r: seq<string>)
    ensures StrictlySorted(r)
    ensures forall y :: y in r <==> y in xs
  {
    if |xs| == 0 then []
    else
      var r := AddUnique(xs[|xs| - 1], SortedSet(xs[..|xs| - 1]));
      assert xs == xs[..|xs| - 1] + [xs[|xs| - 1]];
      r
  }

  /** A set of strings has exactly one strictly sorted listing. */
  lemma {:induction false} StrictlySortedUnique(a: seq<string>, b: seq<string>)
    requires StrictlySorted(a) && StrictlySorted(b)
    requires forall x :: x in a <==> x in b
    ensures a == b
    decreases |a|
  {
    assert |a| > 0 ==> a[0] in b;
    assert |b| > 0 ==> b[0] in a;
    if |a| > 0 && |b| > 0 {
      // The first element of each list is its least, so the two agree.
      if a[0] != b[0] {
        assert a[0] in b && b[0] in a;
        var i :| 0 <= i < |b| && b[i] == a[0];
        var j :| 0 <= j < |a| && a[j] == b[0];
        assert Less(b[0], a[0]) by { assert 0 < i; }
        assert Less(a[0], b[0]) by { assert 0 < j; }
        LessAsymmetric(a[0], b[0]);
      }
      forall x
        ensures x in a[1..] <==> x in b[1..]
      {
        if x in a[1..] {
          var k :| 0 <= k < |a[1..]| && a[1..][k] == x;
          assert a[k + 1] == x;
          LessIrreflexive(a[0]);
          assert x != a[0];
          assert x in b;
        }
        if x in b[1..] {
          var k :| 0 <= k < |b[1..]| && b[1..][k] == x;
          assert b[k + 1] == x;
          LessIrreflexive(b[0]);
          assert x != b[0];
          assert x in a;
        }
      }
      StrictlySortedUnique(a[1..], b[1..]);
      assert a == [a[0]] + a[1..] && b == [b[0]] + b[1..];
    }
  }
}

=== FILE: text.dfy ===
/** String operations from Foundation that the views rely on:
    `replacingOccurrences(of:with: "")`, substring search and the
    `"\(a) + \(b)"` joining of amounts. Characters are code points; Swift's
    grapheme clustering and locale rules are not modelled. */
module Text {

  /** `needle` occurs in `hay` at position `i`. */
  predicate OccursAt(needle: string, hay: string, i: nat)
  {
    i + |needle| <= |hay| && hay[i..i + |needle|] == needle
  }

  /** `needle` occurs somewhere in `hay`. */
  predicate IsSubstring(needle: string, hay: string)
  {
    exists i: nat :: i <= |hay| && OccursAt(needle, hay, i)
  }

  /** `s` with every occurrence of `pat` deleted, scanning left to right and
      not rescanning what a deletion brings together; an empty `pat` leaves
      `s` as it is. */
  function RemoveAll(s: string, pat: string): (r: string)
    ensures |r| <= |s|
    ensures forall c :: c in r ==> c in s
    ensures |pat| == 1 ==> pat[0] !in r
    decreases |s|
  {
    if |pat| == 0 || |s| < |pat| then s
    else if s[..|pat|] == pat then RemoveAll(s[|pat|..], pat)
    else [s[0]] + RemoveAll(s[1..], pat)
  }

  /** Deleting a pattern that does not occur changes nothing. */
  lemma {:induction false} RemoveAllAbsent(s: string, pat: string)
    requires !IsSubstring(pat, s)
    ensures RemoveAll(s, pat) == s
    decreases |s|
  {
    if |pat| == 0 {
      assert OccursAt(pat, s, 0);
    } else if |s| >= |pat| {
      assert !OccursAt(pat, s, 0);
      assert s[..|pat|] != pat;
      assert !IsSubstring(pat, s[1..]) by {
        forall i: nat | i <= |s[1..]|
          ensures !OccursAt(pat, s[1..], i)
        {
          assert !OccursAt(pat, s, i + 1);
          if i + |pat| <= |s[1..]| {
            assert s[1..][i..i + |pat|] == s[i + 1..i + 1 + |pat|];
          }
        }
      }
      RemoveAllAbsent(s[1..], pat);
      assert s == [s[0]] + s[1..];
    }
  }

  /** A prefix that does not contain the pattern's first character passes
      through untouched. */
  lemma {:induction false} RemoveAllAfter(a: string, b: string, pat: string)
    requires |pat| > 0
    requires pat[0] !in a
    ensures RemoveAll(a + b, pat) == a + RemoveAll(b, pat)
    decreases |a|
  {
    if |a| > 0 {
      assert (a + b)[0] == a[0];
      if |a + b| >= |pat| {
        assert (a + b)[..|pat|] != pat by {
          assert (a + b)[..|pat|][0] == a[0];
        }
      }
      assert (a + b)[1..] == a[1..] + b;
      RemoveAllAfter(a[1..], b, pat);
      assert a == [a[0]] + a[1..];
    } else {
      assert a + b == b;
    }
  }

  /** The separator placed between amounts of the same ingredient. */
  const Separator: string := " + "

  /** The parts in order with `Separator` between neighbours, built the way
      repeated `"\(existing) + \(next)"` builds it. */
  function Join(parts: seq<string>): string
  {
    if |parts| == 0 then ""
    else if |parts| == 1 then parts[0]
    else Join(parts[..|parts| - 1]) + Separator + parts[|parts| - 1]
  }
}

=== FILE: wrappers.dfy ===
/** Optional values, standing in for Swift optionals (`Int(s)`, `dict[key]`,
    `as? Int`) and for the `?? default` fallback the views apply to them. */
module Wrappers {

  datatype Option<+T> = None | Some(value: T) {

    /** `None` stops a `:-` chain. */
    predicate IsFailure()
    {
      None?
    }

    function PropagateFailure<U>(): Option<U>
      requires None?
    {
      None
    }

    function Extract(): T
      requires Some?
    {
      value
    }

    /** The wrapped value, or `default` when there is none (Swift's `??`). */
    function GetOr(default: T): T
    {
      match this
      case Some(v) => v
      case None => default
    }
  }
}
